=== FILE: README.md ===
# Job board backend: a Dafny model

This project models the decision logic of a small Django REST backend for a job
board. The backend ingests job postings in bulk from an uploaded spreadsheet and
lists them. It also signs users up and issues login tokens. Every endpoint
answers with one JSON envelope.

The model covers:

- **The response envelope** (`CustomResponse`). This is the `success`/`message`/`count`/`data`/`errors` dict:
  - a truthy `errors` replaces `data`;
  - the headline rule takes the first element of the first key of a dict message;
  - the listing `count` is `len(data)`;
  - a falsy success message calls an undefined method, which raises.
- **The authentication gate** (`AuthMiddleWare`):
  - anonymous callers get 401;
  - staff members and superusers get 403;
  - everyone else reaches the view, with `pk` only when `pk` is truthy.
- **Job ingestion**:
  - every spreadsheet row is renamed into an 18-field record in a loop, and the first missing column stops the loop with a KeyError;
  - the factory builds one posting per record;
  - a single `bulk_create` stores them, and only after every row has been mapped;
  - nothing validates the rows before they are stored.
- **Job listing**:
  - a search term goes to the search index;
  - without one, the table is listed newest first;
  - the result is serialized and counted.
- **Users**:
  - `create_user` and `create_superuser`, with their flag rules;
  - the unique id and email columns;
  - `__str__` and the factory;
  - the lookups that turn "not found" into None;
  - the login token payload and signup from a dict.
- **Exceptions**: the two frozen exception records and their string and dict forms.

Python values are modelled by `PyValues.Value`, and a dict is a list of key/value pairs in insertion order. An exception is modelled by `PyValues.Exc`, which holds its class, its `args` and its `str()`. Every call that can raise returns a `Result`.

Each store (`JobPosting.objects` and `User.objects`) is a class holding the saved rows and a clock:

- each saved row is stamped with the next clock value as `created_at` and `modified_at`, with `is_active` true;
- `Valid()` says that creation times strictly increase;
- for users, `Valid()` also says that ids and emails are unique.

The following collaborators are inputs to the operations that use them:

- the parsed spreadsheet;
- `uuid4()`;
- the password hasher;
- `normalize_email`;
- the JWT issuer;
- the search index.

The bulk ingestion path stores whatever the spreadsheet cells hold. It never checks the choice fields, the length limits or blank values: `JobViews.IngestionDoesNotValidate` shows that a "weekly" compensation type is stored.

The modules are:

- `wrappers.dfy`: Option and Result;
- `py_values.dfy`: Python values and exceptions;
- `exceptions.dfy`: the frozen exception records;
- `custom_response.dfy`: the response envelope;
- `middleware.dfy`: the gate;
- `orm.dfy`: rows, `filter`, `get`, `order_by`;
- `job_models.dfy`, `job_services.dfy` and `job_views.dfy`: the job postings;
- `user_models.dfy` and `user_services.dfy`: the users;
- `user_access.dfy`: how created users fare at the gate.

## Model

| member | source | states |
|---|---|---|
| CustomResponse.StructResponse | backend/utils/errors/custom_response.py:14-22 | A truthy `errors` replaces `data` and a falsy one keeps `data`, so exactly one of the two is present. The key order is success, message, then data or errors. |
| CustomResponse.ListingStructResponse | backend/utils/errors/custom_response.py:24-32 | The same rule with `count` kept in both cases; the key order is success, message, count, then data or errors. |
| CustomResponse.Success | backend/utils/errors/custom_response.py:34-40 | With a truthy message: status 200, `success` true, the message and the data, and no errors. With a falsy message it raises AttributeError, because `success_message` is not defined. |
| CustomResponse.Headline | backend/utils/errors/custom_response.py:44-47 | A non-dict message is used as it is. A dict gives the first element of its first key's value: the first item of a list, or the first character of a str, and it succeeds exactly when that value is a non-empty list or str. An empty dict raises StopIteration. |
| CustomResponse.Fail | backend/utils/errors/custom_response.py:42-51 | Gives `success` false, the caller's status and the headline as message. Truthy errors are kept; otherwise `data` is `{}`. It fails exactly when the headline raises. |
| CustomResponse.SerializerInvalid | backend/utils/errors/custom_response.py:53-69 | `errors` becomes "Error While Operation. " followed by the errors' headline, and `data` is dropped. It succeeds exactly when both headlines succeed and the errors' headline is a string. |
| CustomResponse.Listing | backend/utils/errors/custom_response.py:71-77 | Status 200, `success` true, and `count` equal to `len(data)`. It raises when the message is falsy or `data` has no length. |
| CustomResponse.FailFromException | backend/backend/interface/job/views.py:93-98 | The handler gives a 400 fail with errors `{"error": args[0]}` and the fixed message. An exception without args raises IndexError instead. |
| PyValues.FirstOfFirstKey | backend/utils/errors/custom_response.py:45 | `d[next(iter(d))][0]`: StopIteration, with empty args, on an empty dict; otherwise index 0 of the first value. |
| PyValues.Len | backend/utils/errors/custom_response.py:75 | `len` of a list, dict or str is its size; any other value raises TypeError. |
| PyValues.ConcatStr | backend/utils/errors/custom_response.py:67 | `str + v` succeeds exactly when `v` is a str. |
| PyValues.FirstArg | backend/backend/application/user/services.py:63 | `e.args[0]` is the first argument; empty args raise IndexError. |
| Middleware.Gate | backend/utils/django/middleware.py:20-40 | Unauthenticated gives 401 "Authentication Failed. Please login". Authenticated staff or superuser gives 403 "Access denied.". Forwarding happens iff the caller is authenticated, not superuser and not staff, and `pk` is passed iff it is truthy. Both refusals carry `{"error": "Authentication Failed."}` and no data. |
| Middleware.Call | backend/utils/django/middleware.py:20-40 | A refusal is answered without the view. A forwarded call returns exactly the view's result. |
| Middleware.RefusalIgnoresView | backend/utils/django/middleware.py:21-27 | A refused request gets the same answer whatever the view is, with status 401 or 403. |
| Middleware.OrdinaryUserPassesThrough | backend/utils/django/middleware.py:28-33 | An ordinary authenticated caller gets the view's own response, called with `pk` exactly when `pk` is truthy. |
| Exceptions.InvalidUserError.ToString | backend/utils/django/exceptions.py:9-10 | Exactly the item, a colon, then the message: the prefix of the item's length is the item and the rest after the colon is the message. When the item has no colon, splitting at the first colon gives back both fields. |
| Exceptions.InvalidUserError.AsExc | backend/utils/django/exceptions.py:4-10 | The raised exception has args `(item, message)` and its text is `ToString()`. |
| Exceptions.UserError.ErrorData | backend/utils/django/exceptions.py:18-19 | A dict with exactly the keys `item` and `message`, in that order, holding the two fields. |
| Exceptions.UserError.ToString | backend/utils/django/exceptions.py:21-22 | Exactly the item, a space, then the message: the prefix of the item's length is the item and the rest after the space is the message. When the item has no space, splitting at the first space gives back both fields. |
| Exceptions.UserError.AsExc | backend/utils/django/exceptions.py:13-22 | The raised exception has args `(item, message)` and its text is `ToString()`. |
| Orm.Stamp | backend/utils/django/custom_models.py:8-10 | Entities saved from clock `t` get `created_at = modified_at = t + i` and `is_active` true, in order. |
| Orm.Filter | backend/backend/application/user/services.py:73-74 | The matches are exactly the elements that satisfy the condition. There are at least two results iff two positions match. |
| Orm.Get | backend/backend/application/job/services.py:26 | A single match is returned. No match raises DoesNotExist, and that happens iff nothing matches. MultipleObjectsReturned is raised exactly when more than one element matches, so never under a unique column. |
| Orm.GetOrNone | backend/backend/application/job/services.py:25-29 | Returns None iff nothing matches, and a returned row matches. MultipleObjectsReturned escapes exactly when more than one element matches, so never under a unique column. |
| Orm.InsertByCreatedDesc | backend/backend/application/job/services.py:45 | Inserting into a newest-first list keeps it newest first and adds exactly the one row. |
| Orm.OrderByCreatedDesc | backend/backend/application/job/services.py:45 | The result is newest first and is a permutation of the table. |
| JobModels.FieldNamesDistinct | backend/backend/domain/job/models.py:58-81 | The 18 field names are pairwise distinct. |
| JobModels.Field.MaxLength | backend/backend/domain/job/models.py:58-81 | The declared `max_length` of each field: only `post_html`, a TextField, has none, and every declared limit lies between 6 and 1000. |
| JobModels.ValidPosting | backend/backend/domain/job/models.py:58-81 | What the declarations accept: every field non-blank, each bounded field within its `max_length`, each choice field one of its declared values. A valid posting has every field non-empty and every field but `post_html` at most 1000 characters. |
| JobModels.CompensationChoice.Value | backend/backend/domain/job/models.py:26-31 | Each member's stored value is a declared choice within `max_length` 6, and it parses back to the member. |
| JobModels.RoleSeniorityChoice.Value | backend/backend/domain/job/models.py:34-40 | Each member's stored value is a declared choice within `max_length` 10, and it parses back to the member. |
| JobModels.OfficeLocationChoice.Value | backend/backend/domain/job/models.py:43-49 | Each member's stored value is a declared choice within `max_length` 100, and it parses back to the member. |
| JobModels.ParseCompensation | backend/backend/domain/job/models.py:26-31 | Parsing succeeds iff the text is "annual" or "hourly". |
| JobModels.ParseRoleSeniority | backend/backend/domain/job/models.py:34-40 | Parsing succeeds iff the text is "MidLevel", "EntryLevel" or "TeamLead". |
| JobModels.ParseOfficeLocation | backend/backend/domain/job/models.py:43-49 | Parsing succeeds iff the text is "Hybrid", "InOffice" or "WorkFromHome". |
| JobModels.ChoiceParseValue | backend/backend/domain/job/models.py:26-49 | A parsed choice prints back to the text it came from. |
| JobModels.AsKwargs | backend/backend/domain/job/models.py:58-81 | A record read as keyword arguments has exactly the 18 fields. |
| JobModels.ValidChoicesParse | backend/backend/domain/job/models.py:70-77 | A record that satisfies the declared constraints has choice fields that parse to enumeration members. |
| JobModels.DisplayName | backend/backend/domain/job/models.py:83-84 | `__str__` is the company name. |
| JobModels.BuildEntity | backend/backend/domain/job/models.py:91-133 | The built record carries the given id. It requires all 18 keywords, as the Python signature does. |
| JobModels.BuildEntityKeepsKwargs | backend/backend/domain/job/models.py:113-133 | Every keyword argument lands in the field of the same name: reading the record back gives exactly the arguments. |
| JobModels.BuildEntityFromKwargs | backend/backend/domain/job/models.py:91-133 | Rebuilding a record from its own id and fields gives the record. |
| JobModels.BuildEntityWithId | backend/backend/domain/job/models.py:135-178 | Succeeds iff all 18 fields are given, building under the fresh id; otherwise raises TypeError. |
| JobServices.JobPostingTable.BulkCreate | backend/backend/application/job/services.py:51-54 | Appends every entity in list order, stamped from the clock, and returns the list; the clock advances by the count. |
| JobServices.BuildEntities | backend/backend/application/job/services.py:52-53 | Succeeds iff every dict has all 18 fields. The i-th entity is built from the i-th dict with the i-th fresh id. Otherwise raises TypeError. |
| JobServices.BulkCreateJobPostingData | backend/backend/application/job/services.py:47-54 | A build failure writes nothing. Otherwise exactly the built entities are appended, in order. |
| JobServices.GetJobPostingById | backend/backend/application/job/services.py:21-29 | Returns None iff no posting has the id, and a returned posting has the id. The only exception it lets escape is MultipleObjectsReturned, and never when ids are unique. |
| JobServices.GetJobPostingByJobTitle | backend/backend/application/job/services.py:31-39 | Returns None iff no posting has the title, and a returned posting has it. It raises MultipleObjectsReturned exactly when two saved postings share the title. |
| JobServices.GetListOfJobPosting | backend/backend/application/job/services.py:41-45 | Every saved posting, newest first. |
| JobServices.ListingPutsLaterFirst | backend/backend/application/job/services.py:41-45 | In the listing of any table, a posting created later comes earlier. |
| JobViews.ColumnOf | backend/backend/interface/job/views.py:116-133 | The spreadsheet column each of the 18 record fields is read from; every column header is non-empty. |
| JobViews.ColumnRenames | backend/backend/interface/job/views.py:116-133 | A field is read from a column carrying its own name exactly for `company_name`, `company_url`, `post_html`, `city`, `region` and `country`; the other twelve are renamed. |
| JobViews.FirstMissingColumn | backend/backend/interface/job/views.py:115-134 | Returns None iff every listed field's column is present. Otherwise it names the first absent column. |
| JobViews.RecordOf | backend/backend/interface/job/views.py:115-134 | For a row with every column, each of the 18 fields holds the cell of its fixed column. |
| JobViews.MapRow | backend/backend/interface/job/views.py:115-134 | Succeeds iff the row has every column, and then every field holds its column's cell. Otherwise raises KeyError. |
| JobViews.MapRowNamesFirstMissingColumn | backend/backend/interface/job/views.py:115-134 | The KeyError names the first column, in dict order, that the row lacks. |
| JobViews.TraverseSucceeds | backend/backend/interface/job/views.py:114-135 | The row loop completes iff every row maps, and then it holds each row's dict in order. |
| JobViews.TraverseFailsAtFirst | backend/backend/interface/job/views.py:114-135 | A failed row loop raises the error of the first row that fails. |
| JobViews.MapRows | backend/backend/interface/job/views.py:113-135 | The imperative loop appends one dict per row and returns exactly `MapAll`. |
| JobViews.InvalidUpload | backend/backend/interface/job/views.py:141-152 | An invalid upload answers with `serializer_invalid` at 400. If that call itself raises, the answer is a 400 fail, or IndexError when the exception has no arguments, as in `FailFromException` (the StopIteration of an empty errors dict is one). |
| JobViews.BulkJobPosting | backend/backend/interface/job/views.py:106-152 | An invalid upload, an unreadable file or a missing column all leave the table unchanged and give the matching failure envelope, or IndexError when the caught exception has no arguments, as in `FailFromException`. Otherwise every row is stored, in order, through one bulk create, with a 200 "Job Posting created successfully". |
| JobViews.MappedRowsBuild | backend/backend/interface/job/views.py:113-137 | When the row loop completes, the factory accepts every dict, and each dict holds its row's cells. |
| JobViews.IngestedRowsMatchSheet | backend/backend/interface/job/views.py:113-137 | The i-th stored record holds the i-th row's cells under their fields, the i-th fresh id, the clock value for its place, and is active. |
| JobViews.IngestionDoesNotValidate | backend/backend/interface/job/views.py:110-137 | The choice fields are stored exactly as the cells hold them, so a compensation type outside the choices yields an invalid stored posting. |
| JobViews.SerializeJob | backend/backend/interface/job/serializers.py:18-24 | A serialized posting has `is_active` first, then the 18 fields in declaration order, each under its name. `id`, `created_at` and `modified_at` are left out. |
| JobViews.ListingSource | backend/backend/interface/job/views.py:64-85 | A truthy `job_title` queries the search index. Otherwise the whole table is used, newest first and as a permutation of the table. |
| JobViews.SerializeMany | backend/backend/interface/job/views.py:86-88 | One serialized posting per posting, in order. |
| JobViews.ListOfJobPosting | backend/backend/interface/job/views.py:86-98 | On success: 200, "Job Posting Listed successfully", `count` equal to the number of postings, and the serialized postings. A failing source gives the 400 fail, or IndexError when its exception has no arguments, as in `FailFromException`. |
| JobViews.UnfilteredListingCountsTable | backend/backend/interface/job/views.py:84-92 | Without a title, the listing's count is the number of stored postings, and its data serializes them newest first. |
| UserModels.DisplayName | backend/backend/domain/user/models.py:78-79 | `__str__` is the first name immediately followed by the last name. |
| UserModels.DisplayNameIsAmbiguous | backend/backend/domain/user/models.py:78-79 | Because there is no separator, two users with different first names can print the same. |
| UserModels.BuildEntity | backend/backend/domain/user/models.py:85-99 | The id comes from the `UserID`. Email, names and password pass through unchanged, and neither flag is set. |
| UserModels.BuildEntityWithId | backend/backend/domain/user/models.py:101-116 | Uses the fresh id and passes the other four fields through unchanged. Neither flag is set. |
| UserModels.SetDefault | backend/backend/domain/user/models.py:42-43 | Adds the key with the default only when the key is absent, and keeps every existing entry. |
| UserModels.SuperuserFields | backend/backend/domain/user/models.py:42-48 | Both flags default to True. The result is Ok iff neither flag was given as anything but True. A bad `is_staff` raises first, then a bad `is_superuser`, each with its ValueError message. |
| UserModels.UserTable.Insert | backend/backend/domain/user/models.py:62-64 | Saving fails with IntegrityError, writing nothing, iff a saved user has the same id or email. Otherwise one stamped row is appended. Unique ids and emails are preserved. |
| UserModels.UserTable.CreateUser | backend/backend/domain/user/models.py:25-36 | A missing or empty email raises "Enter an email address" and nothing is saved. Otherwise the email is normalised, the password hashed and the flags set from the keywords, and exactly one row is saved. Every failure leaves the table unchanged. |
| UserModels.UserTable.CreateSuperuser | backend/backend/domain/user/models.py:38-49 | A flag rule violation raises its ValueError before anything is saved; with the flags accepted, a missing or empty email raises the email ValueError. A user is created iff the flags pass, the email is non-empty, the extra keywords are accepted and neither the id nor the normalised email is taken. A created user has the given names, the hashed password and both flags True, is saved exactly once and advances the clock by one; every failure leaves the table as it was. |
| UserServices.GetUserById | backend/backend/application/user/services.py:19-27 | Returns None iff no user has the id, and a returned user has it. It raises MultipleObjectsReturned exactly when two saved users share the id, so never when ids are unique. |
| UserServices.GetUserByEmail | backend/backend/application/user/services.py:29-37 | Returns None iff no user has the email, and a returned user has it. It raises MultipleObjectsReturned exactly when two saved users share the email, so never when emails are unique. |
| UserServices.GetListOfUsers | backend/backend/application/user/services.py:39-43 | All saved users: the same multiset as the table. |
| UserServices.SavedUserIsFound | backend/backend/application/user/services.py:19-37 | Under the unique columns, looking up a saved user's id or email returns exactly that user. |
| UserServices.ListedUsersAreFound | backend/backend/application/user/services.py:39-43 | Every listed user is what both lookups return for its id and its email. |
| UserServices.FullName | backend/backend/application/user/services.py:54 | Exactly the first name, one space, then the last name: the prefix of the first name's length is the first name and the rest after the space is the last name. When the first name has no space, splitting at the first space gives back both names. |
| UserServices.TokenData | backend/backend/application/user/services.py:51-59 | Keys in order: id, email, full_name, created_at, modified_at, access, refresh. Each holds the user's value or the issued token. |
| UserServices.GetUserToken | backend/backend/application/user/services.py:45-64 | Succeeds iff there is a user and the tokens were issued. A failure with arguments becomes `InvalidUserException("Invalid Credentials", str(e))`. A failure without arguments escapes as IndexError from the logging call. |
| UserServices.SignupData | backend/backend/application/user/services.py:84-89 | Keys in order: first_name, last_name, email, full_name. Full name is first + " " + last. |
| UserServices.GetOrNoneKey | backend/backend/application/user/services.py:68-71 | `data.get(key, None)` is None iff the key is absent, and otherwise the stored value. |
| UserServices.CreateUserFromDict | backend/backend/application/user/services.py:66-89 | A taken email raises `UserException("Email already exists", "")` and writes nothing. Otherwise exactly one user is saved, holding the hash of the password, and becomes the user found by its email. The answer is that user's signup dict. Unique ids and emails are preserved. |
| UserAccess.SignedIn | backend/utils/django/middleware.py:21-28 | The gate sees an authenticated user whose two flags are the truthiness of the stored flags. |
| UserAccess.SuperusersAreRefused | backend/utils/django/middleware.py:34-40 | A signed-in user with both flags True, as `create_superuser` makes, is refused with 403. |
| UserAccess.FactoryUsersPassThrough | backend/utils/django/middleware.py:28-33 | A signed-in user built by `UserFactory` reaches the view. |

## Left out

- Reading the spreadsheet (`pandas.read_excel`) is an input: the sheet is already a list of rows of text cells, or the error reading raised. Pandas cell types (numbers, NaN) are not modelled.
- The search index's fuzzy autocomplete is an input function from the title to the rows it returns. Its matching rules and document shape are not modelled.
- The upload and signup serializers' `is_valid()` verdicts and error dicts are inputs; the serializer classes are not modelled.
- `uuid4()`, `make_password`/`set_password`, `normalize_email` and `RefreshToken.for_user` are inputs, because they are randomness, cryptography and foreign code.
- Logging, `CustomResponse.__init__`'s stack inspection and the DRF `Response` object are left out. A response is the body datatype plus an int status.
- Routing, schema documentation, the factory and repository getters, `JobPostingOrderingFilter` and the user views (`authenticate`, `update_last_login`, `transaction.atomic`) are not part of this model.
- Timestamps are clock ticks, not datetimes. The model stamps `created_at` and `modified_at` with one tick; Django reads the clock separately for each (`auto_now_add` and `auto_now`), so the two may differ slightly.
- `bulk_create` of job postings always succeeds. Database-side length, blank or duplicate-key errors and partial writes are not modelled.
- The order of `User.objects.all()` is unspecified in the source; the model uses insertion order.
- Concurrency is left out; the code has none.
- Ids are canonical UUID text compared as strings. Django's UUIDField would raise ValidationError on a lookup by text that is not a UUID, and compares parsed UUIDs.
- Dict keys are assumed distinct, as in every Python dict. The pair-sequence representation could hold a repeated key, and `Lookup` and `FirstOfFirstKey` would then read the first pair where Python keeps the last value; no operation here builds such a dict.
- The choice enumerations' display labels ("Annual", "Mid-Level", …) are left out; only the stored values are modelled.
- JobModels.BuildEntityWithId: keyword arguments are keyed by the field enumeration, so an unexpected extra keyword, which Python would refuse with TypeError, cannot be expressed. Only missing keywords are modelled.
- UserModels.UserTable.CreateUser: extra keywords other than `is_staff` and `is_superuser` are refused with TypeError. Django would also accept the remaining model fields (`last_login`, `is_active`, …).
- UserModels.User: a flag holds the value it was given. The database's conversion of a non-bool flag on save is not modelled. The declared `max_length` (30 for the email, 50 for each name) and `blank=False` are not modelled: nothing on these paths checks them.
- UserServices.CreateUserFromDict: requires the `email`, `first_name` and `last_name` keys. Its only caller passes serializer-validated data in which they are required. A missing key would put None into a NOT NULL column, whose outcome the database decides. A missing `password` is modelled, as `make_password(None)`.
- UserServices.TokenData: `created_at` and `modified_at` are clock ticks rather than datetimes, and the token contents are opaque text.

=== FILE: custom_response.dfy ===
/** The response envelope of `utils/errors/custom_response.py`: the body dict that
    every endpoint returns, in its success, listing and failure shapes, paired with
    the HTTP status as an int. */
module CustomResponse {
  import opened Wrappers
  import opened PyValues

  const HTTP_200_OK: int := 200
  const HTTP_400_BAD_REQUEST: int := 400
  const HTTP_401_UNAUTHORIZED: int := 401
  const HTTP_403_FORBIDDEN: int := 403

  const OperationErrorPrefix: string := "Error While Operation. "

  /** The body dict: `success`, `message`, for listings `count`, then `data` or `errors`. */
  datatype Body = Body(
    success: bool,
    message: Value,
    count: Option<int>,
    data: Option<Value>,
    errors: Option<Value>)
  {
    /** The dict's keys in insertion order. */
    function KeyOrder(): seq<string> {
      ["success", "message"]
        + (if count.Some? then ["count"] else [])
        + (if data.Some? then ["data"] else [])
        + (if errors.Some? then ["errors"] else [])
    }
  }

  /** The envelope never carries both `data` and `errors`, and always one of them. */
  predicate DataXorErrors(b: Body) {
    b.data.Some? != b.errors.Some?
  }

  datatype Response = Response(body: Body, status: int)

  /** `struct_response`: a truthy `errors` replaces `data`; otherwise `data` stays. */
  function StructResponse(data: Value, success: bool, message: Value, errors: Value): (r: Body)
    ensures DataXorErrors(r) && r.count.None?
    ensures r.success == success && r.message == message
    ensures Truthy(errors) <==> r.errors == Some(errors)
    ensures !Truthy(errors) <==> r.data == Some(data)
    ensures r.KeyOrder() == ["success", "message", if Truthy(errors) then "errors" else "data"]
  {
    var response := Body(success, message, None, Some(data), None);
    if Truthy(errors) then response.(data := None, errors := Some(errors)) else response
  }

  /** `listing_struct_response`: as `StructResponse`, keeping `count` in every case. */
  function ListingStructResponse(data: Value, success: bool, message: Value, count: int, errors: Value): (r: Body)
    ensures DataXorErrors(r) && r.count == Some(count)
    ensures r.success == success && r.message == message
    ensures Truthy(errors) <==> r.errors == Some(errors)
    ensures !Truthy(errors) <==> r.data == Some(data)
    ensures r.KeyOrder() == ["success", "message", "count", if Truthy(errors) then "errors" else "data"]
  {
    var response := Body(success, message, Some(count), Some(data), None);
    if Truthy(errors) then response.(data := None, errors := Some(errors)) else response
  }

  /** The raise of `self.success_message()`, a method the class does not define. */
  function MissingSuccessMessage(): Exc {
    Raise(AttributeError, "'CustomResponse' object has no attribute 'success_message'")
  }

  /** `success`: status 200 and the caller's message; a falsy message raises. */
  function Success(data: Value, message: Value): (r: Result<Response, Exc>)
    ensures r.Ok? <==> Truthy(message)
    ensures r.Ok? ==>
      && r.value.status == HTTP_200_OK && r.value.body.success
      && r.value.body.message == message && r.value.body.data == Some(data)
      && r.value.body.errors.None? && r.value.body.count.None?
    ensures r.Err? ==> r.error.kind == AttributeError
  {
    if !Truthy(message) then Err(MissingSuccessMessage())
    else Ok(Response(StructResponse(data, true, message, VNone), HTTP_200_OK))
  }

  /** The headline rule shared by `fail` and `serializer_invalid`: a dict yields the
      first element of its first key's value, anything else is used as it is. */
  function Headline(message: Value): (r: Result<Value, Exc>)
    ensures !message.VDict? ==> r == Ok(message)
    ensures (message.VDict? && message.entries != [] && message.entries[0].1.VList?
             && message.entries[0].1.items != []) ==> r == Ok(message.entries[0].1.items[0])
    ensures (message.VDict? && message.entries != [] && message.entries[0].1.VStr?
             && message.entries[0].1.s != []) ==> r == Ok(VStr([message.entries[0].1.s[0]]))
    ensures message.VDict? && message.entries != [] ==>
      (r.Ok? <==> (message.entries[0].1.VList? && message.entries[0].1.items != [])
                  || (message.entries[0].1.VStr? && message.entries[0].1.s != []))
    ensures message.VDict? && message.entries == [] ==> r.Err? && r.error.kind == StopIteration
  {
    if message.VDict? then FirstOfFirstKey(message.entries) else Ok(message)
  }

  /** `fail`: `success` false, the caller's status, the headline as message, and the
      caller's errors (which replace the empty `data` dict when truthy). */
  function Fail(status: int, errors: Value, message: Value): (r: Result<Response, Exc>)
    ensures r.Ok? <==> Headline(message).Ok?
    ensures !message.VDict? ==> r.Ok? && r.value.body.message == message
    ensures r.Ok? ==>
      && r.value.status == status && !r.value.body.success
      && r.value.body.message == Headline(message).value
      && DataXorErrors(r.value.body) && r.value.body.count.None?
      && (Truthy(errors) ==> r.value.body.errors == Some(errors))
      && (!Truthy(errors) ==> r.value.body.data == Some(VDict([])))
    ensures r.Err? ==> r.error == Headline(message).error
  {
    match Headline(message)
    case Err(e) => Err(e)
    case Ok(headline) => Ok(Response(StructResponse(VDict([]), false, headline, errors), status))
  }

  /** `serializer_invalid`: the errors become one string, "Error While Operation. "
      followed by the errors' headline, so `data` is always dropped. */
  function SerializerInvalid(status: int, errors: Value, message: Value): (r: Result<Response, Exc>)
    ensures r.Ok? <==> Headline(message).Ok? && Headline(errors).Ok? && Headline(errors).value.VStr?
    ensures r.Ok? ==>
      && r.value.status == status && !r.value.body.success
      && r.value.body.message == Headline(message).value
      && r.value.body.errors == Some(VStr(OperationErrorPrefix + Headline(errors).value.s))
      && r.value.body.data.None? && r.value.body.count.None?
    ensures errors.VStr? && !message.VDict? ==> r.Ok?
  {
    match Headline(message)
    case Err(e) => Err(e)
    case Ok(finalMessage) =>
      match Headline(errors)
      case Err(e) => Err(e)
      case Ok(errorMessage) =>
        match ConcatStr(OperationErrorPrefix, errorMessage)
        case Err(e) => Err(e)
        case Ok(text) =>
          Ok(Response(StructResponse(VDict([]), false, finalMessage, VStr(text)), status))
  }

  /** `listing`: status 200, `success` true, and `count` the length of `data`. */
  function Listing(data: Value, message: Value): (r: Result<Response, Exc>)
    ensures r.Ok? <==> Truthy(message) && Len(data).Ok?
    ensures r.Ok? ==>
      && r.value.status == HTTP_200_OK && r.value.body.success
      && r.value.body.message == message
      && r.value.body.count == Some(Len(data).value as int)
      && r.value.body.data == Some(data) && r.value.body.errors.None?
    ensures data.VList? && Truthy(message) ==> r.Ok? && r.value.body.count == Some(|data.items|)
  {
    if !Truthy(message) then Err(MissingSuccessMessage())
    else
      match Len(data)
      case Err(e) => Err(e)
      case Ok(n) => Ok(Response(ListingStructResponse(data, true, message, n, VNone), HTTP_200_OK))
  }

  /** The views' `except Exception as le` handler: a `fail` envelope with status 400,
      errors `{"error": le.args[0]}` and a fixed message. */
  function FailFromException(e: Exc, message: string): (r: Result<Response, Exc>)
    ensures r.Ok? <==> e.args != []
    ensures r.Ok? ==>
      && r.value.status == HTTP_400_BAD_REQUEST && !r.value.body.success
      && r.value.body.message == VStr(message)
      && r.value.body.errors == Some(VDict([("error", e.args[0])]))
      && r.value.body.data.None?
    ensures r.Err? ==> r.error.kind == IndexError
  {
    match FirstArg(e)
    case Err(e2) => Err(e2)
    case Ok(arg) => Fail(HTTP_400_BAD_REQUEST, VDict([("error", arg)]), VStr(message))
  }
}

=== FILE: exceptions.dfy ===
/** The two frozen exception records of `utils/django/exceptions.py`. Being
    datatypes, their fields cannot change once built, which is what
    `@dataclass(frozen=True)` promises. */
module Exceptions {
  import opened PyValues

  /** Splits `s` at the first occurrence of `sep`; without one, the second part is empty
      and the first is all of `s`. It reads back the two fields from their `str()`. */
  function SplitAtFirst(s: string, sep: char): (parts: (string, string))
    ensures sep !in s ==> parts == (s, [])
  {
    if s == [] then ([], [])
    else if s[0] == sep then ([], s[1..])
    else
      var rest := SplitAtFirst(s[1..], sep);
      assert sep !in s ==> [s[0]] + s[1..] == s;
      ([s[0]] + rest.0, rest.1)
  }

  /** Joining two strings with a separator that the first does not contain can be undone. */
  lemma {:induction false} SplitAtFirstJoin(head: string, sep: char, tail: string)
    requires sep !in head
    ensures SplitAtFirst(head + [sep] + tail, sep) == (head, tail)
  {
    if head == [] {
      assert head + [sep] + tail == [sep] + tail;
    } else {
      assert (head + [sep] + tail)[1..] == head[1..] + [sep] + tail;
      SplitAtFirstJoin(head[1..], sep, tail);
      assert [head[0]] + head[1..] == head;
    }
  }

  /** `InvalidUserException(item, message)`, raised when token issuing fails. */
  datatype InvalidUserError = InvalidUserError(item: string, message: string) {

    /** `str(e)` is the item and the message joined by a colon. */
    function ToString(): (r: string)
      ensures |r| == |item| + 1 + |message| && r[|item|] == ':'
      ensures r[..|item|] == item && r[|item| + 1..] == message
      ensures ':' !in item ==> SplitAtFirst(r, ':') == (item, message)
    {
      if ':' !in item then SplitAtFirstJoin(item, ':', message); item + ":" + message
      else item + ":" + message
    }

    /** The exception as raised: `args` are the two constructor arguments. */
    function AsExc(): (e: Exc)
      ensures e.kind == InvalidUserException && e.args == [VStr(item), VStr(message)]
      ensures e.text == ToString()
    {
      Exc(InvalidUserException, [VStr(item), VStr(message)], ToString())
    }
  }

  /** `UserException(item, message)`, raised for a duplicate signup email. */
  datatype UserError = UserError(item: string, message: string) {

    /** `error_data()`: a dict with exactly the keys `item` and `message`, in that order. */
    function ErrorData(): (r: Value)
      ensures r.VDict? && Keys(r.entries) == ["item", "message"]
      ensures Lookup(r.entries, "item") == Wrappers.Some(VStr(item))
      ensures Lookup(r.entries, "message") == Wrappers.Some(VStr(message))
    {
      VDict([("item", VStr(item)), ("message", VStr(message))])
    }

    /** `str(e)` is the item and the message joined by one space. */
    function ToString(): (r: string)
      ensures |r| == |item| + 1 + |message| && r[|item|] == ' '
      ensures r[..|item|] == item && r[|item| + 1..] == message
      ensures ' ' !in item ==> SplitAtFirst(r, ' ') == (item, message)
    {
      if ' ' !in item then SplitAtFirstJoin(item, ' ', message); item + " " + message
      else item + " " + message
    }

    function AsExc(): (e: Exc)
      ensures e.kind == UserException && e.args == [VStr(item), VStr(message)]
      ensures e.text == ToString()
    {
      Exc(UserException, [VStr(item), VStr(message)], ToString())
    }
  }
}

=== FILE: job_models.dfy ===
/** The job-posting schema of `backend/domain/job/models.py`: the three choice
    enumerations, the field limits of `JobPosting`, and `JobFactory`, which copies
    keyword arguments into a record under a fresh id. */
module JobModels {
  import opened Wrappers
  import opened PyValues
  import opened Orm

  /** `JobID`: a frozen wrapper around the id. */
  datatype JobID = JobID(value: Uuid)

  // ---------------------------------------------------------------------------
  // The record's fields
  // ---------------------------------------------------------------------------

  /** The 18 client-supplied fields of `JobPosting`; `Name()` is the Python field
      name, which is also the keyword argument the factory takes. */
  datatype Field =
    | JobTitle | CompanyName | JobDescription | JobPostUrl | JobApplyUrl | CompanyUrl
    | CompanyIndustry | MinCompensation | MaxCompensation | TypeOfCompensation | JobHours
    | RoleSeniority | MinEducation | OfficeLocation | PostHtml | City | Region | Country
  {
    function Name(): string {
      match this
      case JobTitle => "job_title"
      case CompanyName => "company_name"
      case JobDescription => "job_description"
      case JobPostUrl => "job_post_url"
      case JobApplyUrl => "job_apply_url"
      case CompanyUrl => "company_url"
      case CompanyIndustry => "company_industry"
      case MinCompensation => "min_compensation"
      case MaxCompensation => "max_compensation"
      case TypeOfCompensation => "type_of_compensation"
      case JobHours => "job_hours"
      case RoleSeniority => "role_seniority"
      case MinEducation => "min_education"
      case OfficeLocation => "office_location"
      case PostHtml => "post_html"
      case City => "city"
      case Region => "region"
      case Country => "country"
    }

    /** `max_length`; `post_html` is a TextField and has none. */
    function MaxLength(): (n: Option<nat>)
      ensures n.None? <==> this == PostHtml
      ensures n.Some? ==> 6 <= n.value <= 1000
    {
      match this
      case JobTitle => Some(50)
      case CompanyName => Some(50)
      case JobDescription => Some(500)
      case JobPostUrl => Some(100)
      case JobApplyUrl => Some(100)
      case CompanyUrl => Some(100)
      case CompanyIndustry => Some(1000)
      case MinCompensation => Some(10)
      case MaxCompensation => Some(10)
      case TypeOfCompensation => Some(6)
      case JobHours => Some(10)
      case RoleSeniority => Some(10)
      case MinEducation => Some(20)
      case OfficeLocation => Some(100)
      case PostHtml => None
      case City => Some(100)
      case Region => Some(100)
      case Country => Some(100)
    }
  }

  /** The fields in declaration order. */
  const FieldOrder: seq<Field> := [
    JobTitle, CompanyName, JobDescription, JobPostUrl, JobApplyUrl, CompanyUrl,
    CompanyIndustry, MinCompensation, MaxCompensation, TypeOfCompensation, JobHours,
    RoleSeniority, MinEducation, OfficeLocation, PostHtml, City, Region, Country]

  const AllFields: set<Field> := {
    JobTitle, CompanyName, JobDescription, JobPostUrl, JobApplyUrl, CompanyUrl,
    CompanyIndustry, MinCompensation, MaxCompensation, TypeOfCompensation, JobHours,
    RoleSeniority, MinEducation, OfficeLocation, PostHtml, City, Region, Country}

  /** Every field is listed in `FieldOrder`. */
  lemma FieldCases(f: Field)
    ensures f in FieldOrder && f in AllFields
  {
    match f
    case JobTitle => case CompanyName => case JobDescription => case JobPostUrl =>
    case JobApplyUrl => case CompanyUrl => case CompanyIndustry => case MinCompensation =>
    case MaxCompensation => case TypeOfCompensation => case JobHours => case RoleSeniority =>
    case MinEducation => case OfficeLocation => case PostHtml => case City =>
    case Region => case Country =>
  }

  /** Field names are distinct, so keyword arguments keyed by `Field` are keyed by name. */
  lemma FieldNamesDistinct(f: Field, g: Field)
    requires f.Name() == g.Name()
    ensures f == g
  {
    var n := f.Name();
    // lengths separate most names; the first characters separate the rest
    if |n| == 9 { assert n[0] == g.Name()[0]; assert n[4] == g.Name()[4]; }
    else if |n| == 12 { assert n[0] == g.Name()[0]; }
    else if |n| == 13 { assert n[0] == g.Name()[0]; }
    else if |n| == 15 { assert n[0] == g.Name()[0]; }
    else if |n| == 16 { assert n[0] == g.Name()[0]; assert n[1] == g.Name()[1]; }
  }

  // ---------------------------------------------------------------------------
  // Choice enumerations (value stored in the database; display labels omitted)
  // ---------------------------------------------------------------------------

  const CompensationChoices: set<string> := {"annual", "hourly"}
  const RoleSeniorityChoices: set<string> := {"MidLevel", "EntryLevel", "TeamLead"}
  const OfficeLocationChoices: set<string> := {"Hybrid", "InOffice", "WorkFromHome"}

  datatype CompensationChoice = Annual | Hourly {
    function Value(): (v: string)
      ensures v in CompensationChoices && |v| <= TypeOfCompensation.MaxLength().value
      ensures ParseCompensation(v) == Some(this)
    {
      match this
      case Annual => "annual"
      case Hourly => "hourly"
    }
  }

  function ParseCompensation(s: string): (r: Option<CompensationChoice>)
    ensures r.Some? <==> s in CompensationChoices
  {
    if s == "annual" then Some(Annual) else if s == "hourly" then Some(Hourly) else None
  }

  datatype RoleSeniorityChoice = MidLevel | EntryLevel | TeamLead {
    function Value(): (v: string)
      ensures v in RoleSeniorityChoices && |v| <= RoleSeniority.MaxLength().value
      ensures ParseRoleSeniority(v) == Some(this)
    {
      match this
      case MidLevel => "MidLevel"
      case EntryLevel => "EntryLevel"
      case TeamLead => "TeamLead"
    }
  }

  function ParseRoleSeniority(s: string): (r: Option<RoleSeniorityChoice>)
    ensures r.Some? <==> s in RoleSeniorityChoices
  {
    if s == "MidLevel" then Some(MidLevel)
    else if s == "EntryLevel" then Some(EntryLevel)
    else if s == "TeamLead" then Some(TeamLead)
    else None
  }

  datatype OfficeLocationChoice = Hybrid | InOffice | WorkFromHome {
    function Value(): (v: string)
      ensures v in OfficeLocationChoices && |v| <= OfficeLocation.MaxLength().value
      ensures ParseOfficeLocation(v) == Some(this)
    {
      match this
      case Hybrid => "Hybrid"
      case InOffice => "InOffice"
      case WorkFromHome => "WorkFromHome"
    }
  }

  function ParseOfficeLocation(s: string): (r: Option<OfficeLocationChoice>)
    ensures r.Some? <==> s in OfficeLocationChoices
  {
    if s == "Hybrid" then Some(Hybrid)
    else if s == "InOffice" then Some(InOffice)
    else if s == "WorkFromHome" then Some(WorkFromHome)
    else None
  }

  /** Every parsed choice prints back to the text it was parsed from. */
  lemma ChoiceParseValue(s: string)
    ensures ParseCompensation(s).Some? ==> ParseCompensation(s).value.Value() == s
    ensures ParseRoleSeniority(s).Some? ==> ParseRoleSeniority(s).value.Value() == s
    ensures ParseOfficeLocation(s).Some? ==> ParseOfficeLocation(s).value.Value() == s
  {
  }

  // ---------------------------------------------------------------------------
  // The record
  // ---------------------------------------------------------------------------

  datatype JobPosting = JobPosting(
    id: Uuid,
    jobTitle: string,
    companyName: string,
    jobDescription: string,
    jobPostUrl: string,
    jobApplyUrl: string,
    companyUrl: string,
    companyIndustry: string,
    minCompensation: string,
    maxCompensation: string,
    typeOfCompensation: string,
    jobHours: string,
    roleSeniority: string,
    minEducation: string,
    officeLocation: string,
    postHtml: string,
    city: string,
    region: string,
    country: string)
  {
    /** The value of one field. */
    function FieldValue(f: Field): string {
      match f
      case JobTitle => jobTitle
      case CompanyName => companyName
      case JobDescription => jobDescription
      case JobPostUrl => jobPostUrl
      case JobApplyUrl => jobApplyUrl
      case CompanyUrl => companyUrl
      case CompanyIndustry => companyIndustry
      case MinCompensation => minCompensation
      case MaxCompensation => maxCompensation
      case TypeOfCompensation => typeOfCompensation
      case JobHours => jobHours
      case RoleSeniority => roleSeniority
      case MinEducation => minEducation
      case OfficeLocation => officeLocation
      case PostHtml => postHtml
      case City => city
      case Region => region
      case Country => country
    }
  }

  /** Keyword arguments naming record fields. */
  type Kwargs = map<Field, string>

  /** The record's fields as the keyword arguments that would rebuild it. */
  function AsKwargs(p: JobPosting): (kwargs: Kwargs)
    ensures kwargs.Keys == AllFields
  {
    map[
      JobTitle := p.jobTitle, CompanyName := p.companyName,
      JobDescription := p.jobDescription, JobPostUrl := p.jobPostUrl,
      JobApplyUrl := p.jobApplyUrl, CompanyUrl := p.companyUrl,
      CompanyIndustry := p.companyIndustry, MinCompensation := p.minCompensation,
      MaxCompensation := p.maxCompensation, TypeOfCompensation := p.typeOfCompensation,
      JobHours := p.jobHours, RoleSeniority := p.roleSeniority,
      MinEducation := p.minEducation, OfficeLocation := p.officeLocation,
      PostHtml := p.postHtml, City := p.city, Region := p.region, Country := p.country]
  }

  /** What the model field declarations accept: every field non-blank (`blank=False`),
      each bounded field within its `max_length`, and each choice field one of its
      declared values. Nothing on the ingestion path evaluates this. */
  function ValidPosting(p: JobPosting): (b: bool)
    ensures b ==> forall f: Field ::
      0 < |p.FieldValue(f)| && (f != PostHtml ==> |p.FieldValue(f)| <= 1000)
  {
    && (forall f: Field :: p.FieldValue(f) != [])
    && (forall f: Field :: f.MaxLength().Some? ==> |p.FieldValue(f)| <= f.MaxLength().value)
    && p.typeOfCompensation in CompensationChoices
    && p.roleSeniority in RoleSeniorityChoices
    && p.officeLocation in OfficeLocationChoices
  }

  /** A valid record's choice fields parse to enumeration members. */
  lemma ValidChoicesParse(p: JobPosting)
    requires ValidPosting(p)
    ensures ParseCompensation(p.typeOfCompensation).Some?
    ensures ParseRoleSeniority(p.roleSeniority).Some?
    ensures ParseOfficeLocation(p.officeLocation).Some?
  {
  }

  /** `__str__`: the company name. */
  function DisplayName(p: JobPosting): (s: string)
    ensures s == AsKwargs(p)[CompanyName]
  {
    p.companyName
  }

  /** `JobFactory.build_entity`: all 18 keyword arguments (which the Python signature
      demands) copied into the same-named fields, and the id taken from the `JobID`. */
  function BuildEntity(id: JobID, kwargs: Kwargs): (p: JobPosting)
    requires kwargs.Keys == AllFields
    ensures p.id == id.value
  {
    JobPosting(
      id.value,
      kwargs[JobTitle], kwargs[CompanyName], kwargs[JobDescription],
      kwargs[JobPostUrl], kwargs[JobApplyUrl], kwargs[CompanyUrl],
      kwargs[CompanyIndustry], kwargs[MinCompensation], kwargs[MaxCompensation],
      kwargs[TypeOfCompensation], kwargs[JobHours], kwargs[RoleSeniority],
      kwargs[MinEducation], kwargs[OfficeLocation], kwargs[PostHtml],
      kwargs[City], kwargs[Region], kwargs[Country])
  }

  /** Every keyword argument lands in the field of the same name: reading the
      built record back as keyword arguments gives exactly the arguments. */
  lemma BuildEntityKeepsKwargs(id: JobID, kwargs: Kwargs)
    requires kwargs.Keys == AllFields
    ensures AsKwargs(BuildEntity(id, kwargs)) == kwargs
  {
    var back := AsKwargs(BuildEntity(id, kwargs));
    forall f | f in AllFields ensures back[f] == kwargs[f] {
      match f
      case JobTitle => case CompanyName => case JobDescription => case JobPostUrl =>
      case JobApplyUrl => case CompanyUrl => case CompanyIndustry => case MinCompensation =>
      case MaxCompensation => case TypeOfCompensation => case JobHours => case RoleSeniority =>
      case MinEducation => case OfficeLocation => case PostHtml => case City => case Region =>
      case Country =>
    }
  }

  /** Building from a record's own fields and id gives the record back. */
  lemma BuildEntityFromKwargs(p: JobPosting)
    ensures BuildEntity(JobID(p.id), AsKwargs(p)) == p
  {
  }

  /** `JobFactory.build_entity_with_id(**kwargs)` with `uuid` as the fresh `uuid4()`:
      a TypeError unless every field is given. */
  function BuildEntityWithId(uuid: Uuid, kwargs: Kwargs): (r: Result<JobPosting, Exc>)
    ensures r.Ok? <==> kwargs.Keys == AllFields
    ensures r.Ok? ==> r.value == BuildEntity(JobID(uuid), kwargs)
    ensures r.Err? ==> r.error.kind == TypeError
  {
    if kwargs.Keys != AllFields then
      Err(Raise(TypeError, "build_entity_with_id() missing required keyword arguments"))
    else Ok(BuildEntity(JobID(uuid), kwargs))
  }
}

=== FILE: job_services.dfy ===
/** The job-posting application services of `backend/application/job/services.py`,
    over `JobPosting.objects` modelled as a table object that holds the saved rows
    and the clock that stamps them. */
module JobServices {
  import opened Wrappers
  import opened PyValues
  import opened Orm
  import opened JobModels

  /** `JobPosting.objects`: the saved job postings, oldest first. */
  class JobPostingTable {
    var rows: seq<Row<JobPosting>>
    var clock: nat

    /** Rows are stamped from a clock that only moves forward. */
    ghost predicate Valid()
      reads this
    {
      && CreatedInOrder(rows)
      && forall i :: 0 <= i < |rows| ==> rows[i].createdAt < clock
    }

    constructor ()
      ensures Valid() && rows == []
    {
      rows := [];
      clock := 0;
    }

    /** `bulk_create(entities)`: every entity is saved, in list order, each stamped
        with the next clock value and `is_active` true; the list is returned. */
    method BulkCreate(entities: seq<JobPosting>) returns (created: seq<JobPosting>)
      requires Valid()
      modifies this
      ensures Valid()
      ensures created == entities
      ensures rows == old(rows) + Stamp(entities, old(clock))
      ensures clock == old(clock) + |entities|
    {
      var added := Stamp(entities, clock);
      assert forall i :: 0 <= i < |added| ==> clock <= added[i].createdAt < clock + |entities|;
      rows := rows + added;
      clock := clock + |entities|;
      created := entities;
    }
  }

  /** The list comprehension of `bulk_create_job_posting_data`: one entity per dict,
      in order, the i-th built with the i-th fresh id; the first dict that lacks one
      of the 18 fields stops it with a TypeError. */
  function BuildEntities(data: seq<Kwargs>, uuids: seq<Uuid>): (r: Result<seq<JobPosting>, Exc>)
    requires |uuids| == |data|
    ensures r.Ok? <==> forall i :: 0 <= i < |data| ==> data[i].Keys == AllFields
    ensures r.Ok? ==>
      && |r.value| == |data|
      && forall i :: 0 <= i < |data| ==> r.value[i] == BuildEntity(JobID(uuids[i]), data[i])
    ensures r.Err? ==> r.error.kind == TypeError
  {
    if data == [] then Ok([])
    else
      var first := BuildEntityWithId(uuids[0], data[0]);
      if first.Err? then Err(first.error)
      else
        var rest := BuildEntities(data[1..], uuids[1..]);
        if rest.Err? then
          assert exists i :: 0 <= i < |data[1..]| && data[1..][i].Keys != AllFields;
          Err(rest.error)
        else
          assert first.value == BuildEntity(JobID(uuids[0]), data[0]);
          Ok([first.value] + rest.value)
  }

  /** `bulk_create_job_posting_data`: builds every entity first, then makes one
      `bulk_create` call; a build failure writes nothing. */
  method BulkCreateJobPostingData(table: JobPostingTable, data: seq<Kwargs>, uuids: seq<Uuid>)
    returns (r: Result<seq<JobPosting>, Exc>)
    requires table.Valid() && |uuids| == |data|
    modifies table
    ensures table.Valid()
    ensures r == BuildEntities(data, uuids)
    ensures r.Err? ==> table.rows == old(table.rows) && table.clock == old(table.clock)
    ensures r.Ok? ==> table.rows == old(table.rows) + Stamp(r.value, old(table.clock))
  {
    var entities := BuildEntities(data, uuids);
    if entities.Err? {
      return entities;
    }
    var created := table.BulkCreate(entities.value);
    r := Ok(created);
  }

  // `IdIs` and `IdsUnique` have namesakes in `UserServices` and `UserModels`: each
  // reads the `id` field of its own entity type, which the two records do not share.
  function IdIs(id: Uuid): Row<JobPosting> -> bool {
    (row: Row<JobPosting>) => row.entity.id == id
  }

  function TitleIs(title: string): Row<JobPosting> -> bool {
    (row: Row<JobPosting>) => row.entity.jobTitle == title
  }

  predicate IdsUnique(rows: seq<Row<JobPosting>>) {
    forall i, j :: 0 <= i < |rows| && 0 <= j < |rows| && rows[i].entity.id == rows[j].entity.id ==> i == j
  }

  /** `get_job_posting_by_id`: the posting with that id, or None when there is none. */
  function GetJobPostingById(table: JobPostingTable, id: Uuid): (r: Result<Option<Row<JobPosting>>, Exc>)
    reads table
    ensures r == Ok(None) <==> forall x :: x in table.rows ==> x.entity.id != id
    ensures r.Ok? && r.value.Some? ==> r.value.value in table.rows && r.value.value.entity.id == id
    ensures IdsUnique(table.rows) ==> r.Ok?
    ensures r.Err? ==> r.error.kind == MultipleObjectsReturned
  {
    GetOrNone(table.rows, IdIs(id))
  }

  /** `get_job_posting_by_job_title`: the posting with that title, or None when no
      posting has it; titles are not unique, so two matches raise. */
  function GetJobPostingByJobTitle(table: JobPostingTable, title: string): (r: Result<Option<Row<JobPosting>>, Exc>)
    reads table
    ensures r == Ok(None) <==> forall x :: x in table.rows ==> x.entity.jobTitle != title
    ensures r.Ok? && r.value.Some? ==> r.value.value in table.rows && r.value.value.entity.jobTitle == title
    ensures r.Err? ==> r.error.kind == MultipleObjectsReturned
    ensures r.Err? <==> (exists i, j :: 0 <= i < j < |table.rows| &&
                           table.rows[i].entity.jobTitle == title && table.rows[j].entity.jobTitle == title)
  {
    GetOrNone(table.rows, TitleIs(title))
  }

  /** `get_list_of_job_posting`: every saved posting, active or not, newest first. */
  function GetListOfJobPosting(table: JobPostingTable): (r: seq<Row<JobPosting>>)
    reads table
    ensures NewestFirst(r) && multiset(r) == multiset(table.rows)
  {
    OrderByCreatedDesc(table.rows)
  }

  /** In the listing of a valid table, a row created later comes earlier. */
  lemma ListingPutsLaterFirst(table: JobPostingTable, i: nat, j: nat)
    requires i < |GetListOfJobPosting(table)| && j < |GetListOfJobPosting(table)|
    requires GetListOfJobPosting(table)[i].createdAt > GetListOfJobPosting(table)[j].createdAt
    ensures i < j
  {
  }
}

=== FILE: job_views.dfy ===
/** The two job-posting endpoints of `backend/interface/job/views.py`: bulk
    creation from an uploaded spreadsheet, and listing, which routes a search term
    to the search index and otherwise lists the table newest first. The parsed
    spreadsheet, the fresh ids and the search index are inputs. */
module JobViews {
  import opened Wrappers
  import opened PyValues
  import opened CustomResponse
  import opened Orm
  import opened JobModels
  import opened JobServices

  /** One spreadsheet row: column header to cell text. */
  type SheetRow = map<string, string>

  /** The spreadsheet column each record field is read from. */
  function ColumnOf(f: Field): (column: string)
    ensures column != ""
  {
    match f
    case JobTitle => "job_name"
    case CompanyName => "company_name"
    case JobDescription => "job_full_text"
    case JobPostUrl => "post_url"
    case JobApplyUrl => "post_apply_url"
    case CompanyUrl => "company_url"
    case CompanyIndustry => "Company Industry"
    case MinCompensation => "Minimum Compensation"
    case MaxCompensation => "Maximum Compensation"
    case TypeOfCompensation => "Compensation Type"
    case JobHours => "Job Hours"
    case RoleSeniority => "Role Seniority"
    case MinEducation => "Minimum Education"
    case OfficeLocation => "Office Location"
    case PostHtml => "post_html"
    case City => "city"
    case Region => "region"
    case Country => "country"
  }

  /** Six columns carry the field's own name; the other twelve are renamed. */
  lemma ColumnRenames(f: Field)
    ensures ColumnOf(f) == f.Name() <==> f in {CompanyName, CompanyUrl, PostHtml, City, Region, Country}
  {
  }

  const BulkCreatedMessage: string := "Job Posting created successfully"
  const BulkFailedMessage: string := "Unable to create jobs. Please contact administrator."
  const ListedMessage: string := "Job Posting Listed successfully"
  const ListFailedMessage: string := "Unable to list jobs. Please contact administrator."

  /** The row has every column the loop reads. */
  predicate HasColumns(row: SheetRow) {
    forall f: Field :: ColumnOf(f) in row
  }

  /** `mapped` has exactly the 18 record fields, each holding the cell of its column. */
  predicate MappedFrom(mapped: Kwargs, row: SheetRow)
    requires HasColumns(row)
  {
    && (forall f: Field :: f in mapped)
    && forall f :: f in mapped ==> mapped[f] == row[ColumnOf(f)]
  }

  /** The column of the first of `fields` that the row lacks. */
  function FirstMissingColumn(row: SheetRow, fields: seq<Field>): (r: Option<string>)
    ensures r.None? <==> forall f :: f in fields ==> ColumnOf(f) in row
    ensures r.Some? ==> exists i :: 0 <= i < |fields| && ColumnOf(fields[i]) == r.value
                                  && r.value !in row && forall j :: 0 <= j < i ==> ColumnOf(fields[j]) in row
  {
    if fields == [] then None
    else if ColumnOf(fields[0]) !in row then Some(ColumnOf(fields[0]))
    else
      var r := FirstMissingColumn(row, fields[1..]);
      assert forall f :: f in fields[1..] ==> f in fields;
      assert forall j :: 1 <= j < |fields| ==> fields[1..][j - 1] == fields[j];
      r
  }

  /** The dict literal of the row loop, for a row that has every column. */
  function RecordOf(row: SheetRow): (mapped: Kwargs)
    requires HasColumns(row)
    ensures MappedFrom(mapped, row)
  {
    assert forall f: Field :: f in AllFields by {
      forall f: Field ensures f in AllFields {
        FieldCases(f);
      }
    }
    map f | f in AllFields :: row[ColumnOf(f)]
  }

  /** The body of the row loop: the 18-key record dict, each value read from its fixed
      column; a missing column raises KeyError (which one: `MapRowNamesFirstMissingColumn`). */
  function MapRow(row: SheetRow): (r: Result<Kwargs, Exc>)
    ensures r.Ok? <==> HasColumns(row)
    ensures r.Ok? ==> MappedFrom(r.value, row)
    ensures r.Err? ==> r.error.kind == KeyError
  {
    match FirstMissingColumn(row, FieldOrder)
    case Some(column) => Err(MissingKey(column))
    case None =>
      assert HasColumns(row) by {
        forall f: Field ensures ColumnOf(f) in row {
          FieldCases(f);
        }
      }
      Ok(RecordOf(row))
  }

  /** A dict with every field has exactly the record's field names as keys. */
  lemma KwargsKeys(kwargs: Kwargs)
    requires forall f: Field :: f in kwargs
    ensures kwargs.Keys == AllFields
  {
    forall f: Field ensures f in AllFields {
      FieldCases(f);
    }
  }

  /** The KeyError of a row names the first column, in dict order, that the row lacks. */
  lemma MapRowNamesFirstMissingColumn(row: SheetRow)
    requires !HasColumns(row)
    ensures exists i :: 0 <= i < |FieldOrder| && MapRow(row).error == MissingKey(ColumnOf(FieldOrder[i]))
                      && ColumnOf(FieldOrder[i]) !in row && forall j :: 0 <= j < i ==> ColumnOf(FieldOrder[j]) in row
  {
    var f: Field :| ColumnOf(f) !in row;
    FieldCases(f);
    var column := FirstMissingColumn(row, FieldOrder);
    assert column.Some?;
    assert MapRow(row) == Err(MissingKey(column.value));
  }

  // ---------------------------------------------------------------------------
  // The row loop: a step applied to each row in turn, the first raise ending it
  // ---------------------------------------------------------------------------

  /** Every element stepped in order, or the first step's error. */
  function Traverse<A, B>(xs: seq<A>, step: A -> Result<B, Exc>): (r: Result<seq<B>, Exc>)
    ensures r.Ok? ==> |r.value| == |xs|
  {
    if xs == [] then Ok([])
    else
      match step(xs[0])
      case Err(e) => Err(e)
      case Ok(first) =>
        match Traverse(xs[1..], step)
        case Err(e) => Err(e)
        case Ok(rest) => Ok([first] + rest)
  }

  /** The traversal completes exactly when every step does, and then holds their results. */
  lemma {:induction false} TraverseSucceeds<A, B>(xs: seq<A>, step: A -> Result<B, Exc>)
    ensures Traverse(xs, step).Ok? <==> forall i :: 0 <= i < |xs| ==> step(xs[i]).Ok?
    ensures Traverse(xs, step).Ok? ==> forall i :: 0 <= i < |xs| ==> Traverse(xs, step).value[i] == step(xs[i]).value
  {
    if xs != [] {
      TraverseSucceeds(xs[1..], step);
      assert forall i :: 1 <= i < |xs| ==> xs[1..][i - 1] == xs[i];
    }
  }

  /** A failed traversal raises the error of its first failing step. */
  lemma {:induction false} TraverseFailsAtFirst<A, B>(xs: seq<A>, step: A -> Result<B, Exc>)
    ensures Traverse(xs, step).Err? ==>
      exists i :: 0 <= i < |xs| && step(xs[i]).Err? && Traverse(xs, step).error == step(xs[i]).error
                && forall j :: 0 <= j < i ==> step(xs[j]).Ok?
  {
    if xs != [] && step(xs[0]).Ok? && Traverse(xs[1..], step).Err? {
      TraverseFailsAtFirst(xs[1..], step);
      var i :| 0 <= i < |xs[1..]| && step(xs[1..][i]).Err? && Traverse(xs[1..], step).error == step(xs[1..][i]).error
                && forall j :: 0 <= j < i ==> step(xs[1..][j]).Ok?;
      assert xs[1..][i] == xs[i + 1];
      assert forall j :: 1 <= j < i + 1 ==> xs[1..][j - 1] == xs[j];
    }
  }

  /** Traversing a concatenation traverses the first part, then the second. */
  lemma {:induction false} TraverseAppend<A, B>(xs: seq<A>, ys: seq<A>, step: A -> Result<B, Exc>)
    ensures Traverse(xs + ys, step) ==
      match Traverse(xs, step)
      case Err(e) => Err(e)
      case Ok(a) => (match Traverse(ys, step) case Err(e) => Err(e) case Ok(b) => Ok(a + b))
  {
    if xs == [] {
      assert xs + ys == ys;
      if Traverse(ys, step).Ok? {
        assert [] + Traverse(ys, step).value == Traverse(ys, step).value;
      }
    } else {
      var zs := xs + ys;
      assert zs[0] == xs[0] && zs[1..] == xs[1..] + ys;
      TraverseAppend(xs[1..], ys, step);
      if step(xs[0]).Ok? && Traverse(xs[1..], step).Ok? && Traverse(ys, step).Ok? {
        var first, a, b := step(xs[0]).value, Traverse(xs[1..], step).value, Traverse(ys, step).value;
        assert [first] + (a + b) == ([first] + a) + b;
      }
    }
  }

  /** One more element extends a completed traversal by its result, or stops it. */
  lemma TraverseSnoc<A, B>(xs: seq<A>, x: A, step: A -> Result<B, Exc>)
    requires Traverse(xs, step).Ok?
    ensures Traverse(xs + [x], step) ==
      match step(x)
      case Err(e) => Err(e)
      case Ok(y) => Ok(Traverse(xs, step).value + [y])
  {
    assert [x][0] == x && [x][1..] == [];
    assert Traverse([], step) == Ok([]);
    if step(x).Ok? {
      assert Traverse([x], step) == Ok([step(x).value] + []);
      assert [step(x).value] + [] == [step(x).value];
    }
    TraverseAppend(xs, [x], step);
  }

  /** A traversal whose first `k` steps succeed and whose step `k` fails raises that error. */
  lemma TraverseStopsAt<A, B>(xs: seq<A>, k: nat, step: A -> Result<B, Exc>)
    requires k < |xs| && Traverse(xs[..k], step).Ok? && step(xs[k]).Err?
    ensures Traverse(xs, step) == Err(step(xs[k]).error)
  {
    assert xs[..k] + xs[k..] == xs;
    assert xs[k..][0] == xs[k];
    TraverseAppend(xs[..k], xs[k..], step);
  }

  /** The whole row loop as a value. */
  function MapAll(rows: seq<SheetRow>): (r: Result<seq<Kwargs>, Exc>)
    ensures r.Ok? ==> |r.value| == |rows|
  {
    Traverse(rows, MapRow)
  }

  /** The `for _, row in df.iterrows()` loop, appending one dict per row. */
  method MapRows(rows: seq<SheetRow>) returns (r: Result<seq<Kwargs>, Exc>)
    ensures r == MapAll(rows)
  {
    var list: seq<Kwargs> := [];
    var k := 0;
    while k < |rows|
      invariant 0 <= k <= |rows|
      invariant Traverse(rows[..k], MapRow) == Ok(list)
    {
      var mapped := MapRow(rows[k]);
      if mapped.Err? {
        TraverseStopsAt(rows, k, MapRow);
        return Err(mapped.error);
      }
      TraverseSnoc(rows[..k], rows[k], MapRow);
      assert rows[..k + 1] == rows[..k] + [rows[k]];
      list := list + [mapped.value];
      k := k + 1;
    }
    assert rows[..k] == rows;
    return Ok(list);
  }

  /** The serializer failure path: `serializer_invalid` with status 400, itself inside
      the `try`, so that an error it raises becomes a `fail` envelope. */
  function InvalidUpload(errors: Value): (r: Result<Response, Exc>)
    ensures SerializerInvalid(HTTP_400_BAD_REQUEST, errors, VStr(BulkFailedMessage)).Ok? ==>
      r == SerializerInvalid(HTTP_400_BAD_REQUEST, errors, VStr(BulkFailedMessage))
    ensures r.Ok? ==> r.value.status == HTTP_400_BAD_REQUEST && !r.value.body.success
  {
    match SerializerInvalid(HTTP_400_BAD_REQUEST, errors, VStr(BulkFailedMessage))
    case Ok(response) => Ok(response)
    case Err(e) => FailFromException(e, BulkFailedMessage)
  }

  /** `bulk_job_posting`. `uploadValid` and `uploadErrors` are the upload serializer's
      verdict; `sheet` is what reading the spreadsheet gives; `uuids` are the fresh ids. */
  method BulkJobPosting(
    table: JobPostingTable, uploadValid: bool, uploadErrors: Value,
    sheet: Result<seq<SheetRow>, Exc>, uuids: seq<Uuid>)
    returns (r: Result<Response, Exc>)
    requires table.Valid()
    requires sheet.Ok? ==> |uuids| == |sheet.value|
    modifies table
    ensures table.Valid()
    ensures !uploadValid ==> unchanged(table) && r == InvalidUpload(uploadErrors)
    ensures uploadValid && sheet.Err? ==>
      unchanged(table) && r == FailFromException(sheet.error, BulkFailedMessage)
    ensures uploadValid && sheet.Ok? && MapAll(sheet.value).Err? ==>
      unchanged(table) && r == FailFromException(MapAll(sheet.value).error, BulkFailedMessage)
    ensures uploadValid && sheet.Ok? && MapAll(sheet.value).Ok? ==>
      && BuildEntities(MapAll(sheet.value).value, uuids).Ok?
      && table.rows == old(table.rows) + Stamp(BuildEntities(MapAll(sheet.value).value, uuids).value, old(table.clock))
      && r.Ok? && r.value.status == HTTP_200_OK
      && r.value.body.message == VStr(BulkCreatedMessage)
  {
    if !uploadValid {
      r := InvalidUpload(uploadErrors);
      return;
    }
    if sheet.Err? {
      r := FailFromException(sheet.error, BulkFailedMessage);
      return;
    }
    var mapped := MapRows(sheet.value);
    if mapped.Err? {
      r := FailFromException(mapped.error, BulkFailedMessage);
      return;
    }
    MappedRowsBuild(sheet.value, uuids);
    var created := BulkCreateJobPostingData(table, mapped.value, uuids);
    r := Success(VDict([]), VStr(BulkCreatedMessage));
  }

  /** A completed row loop yields dicts that the factory accepts: each has all 18 fields. */
  lemma MappedRowsBuild(rows: seq<SheetRow>, uuids: seq<Uuid>)
    requires |uuids| == |rows| && MapAll(rows).Ok?
    ensures BuildEntities(MapAll(rows).value, uuids).Ok?
    ensures forall i :: 0 <= i < |rows| ==> HasColumns(rows[i]) && MappedFrom(MapAll(rows).value[i], rows[i])
  {
    var mapped := MapAll(rows).value;
    TraverseSucceeds(rows, MapRow);
    forall i | 0 <= i < |mapped| ensures HasColumns(rows[i]) && MappedFrom(mapped[i], rows[i]) && mapped[i].Keys == AllFields {
      assert mapped[i] == MapRow(rows[i]).value;
      KwargsKeys(mapped[i]);
    }
  }

  /** Each ingested row becomes the record at its own position after the old rows: the
      row's cells under their fields, the row's fresh id, and the clock value for its place. */
  lemma IngestedRowsMatchSheet(rows: seq<SheetRow>, uuids: seq<Uuid>, t: nat)
    requires |uuids| == |rows| && MapAll(rows).Ok?
    ensures BuildEntities(MapAll(rows).value, uuids).Ok?
    ensures forall i :: 0 <= i < |rows| ==>
      var row := Stamp(BuildEntities(MapAll(rows).value, uuids).value, t)[i];
      && HasColumns(rows[i]) && MappedFrom(AsKwargs(row.entity), rows[i])
      && row.entity.id == uuids[i] && row.createdAt == t + i && row.isActive
  {
    MappedRowsBuild(rows, uuids);
    var mapped := MapAll(rows).value;
    var built := BuildEntities(mapped, uuids).value;
    var stamped := Stamp(built, t);
    forall i | 0 <= i < |rows|
      ensures HasColumns(rows[i]) && MappedFrom(AsKwargs(stamped[i].entity), rows[i])
      ensures stamped[i].entity.id == uuids[i] && stamped[i].createdAt == t + i && stamped[i].isActive
    {
      assert mapped[i].Keys == AllFields;
      assert built[i] == BuildEntity(JobID(uuids[i]), mapped[i]);
      BuildEntityKeepsKwargs(JobID(uuids[i]), mapped[i]);
    }
  }

  /** The columns the three choice fields are read from. */
  lemma ChoiceColumns()
    ensures ColumnOf(TypeOfCompensation) == "Compensation Type"
    ensures ColumnOf(RoleSeniority) == "Role Seniority"
    ensures ColumnOf(OfficeLocation) == "Office Location"
  {
  }

  /** Nothing on the ingestion path checks `ValidPosting`: whatever a row's choice cells
      hold is stored, so a compensation type such as "weekly" yields a record outside the
      declared choices. */
  lemma IngestionDoesNotValidate(rows: seq<SheetRow>, uuids: seq<Uuid>, i: nat)
    requires |uuids| == |rows| && MapAll(rows).Ok? && i < |rows|
    ensures BuildEntities(MapAll(rows).value, uuids).Ok?
    ensures "Compensation Type" in rows[i] && "Role Seniority" in rows[i] && "Office Location" in rows[i]
    ensures var p := BuildEntities(MapAll(rows).value, uuids).value[i];
      && p.typeOfCompensation == rows[i]["Compensation Type"]
      && p.roleSeniority == rows[i]["Role Seniority"]
      && p.officeLocation == rows[i]["Office Location"]
      && (rows[i]["Compensation Type"] !in CompensationChoices ==> !ValidPosting(p))
  {
    ChoiceColumns();
    MappedRowsBuild(rows, uuids);
    var row := rows[i];
    var kwargs := MapAll(rows).value[i];
    assert HasColumns(row) && MappedFrom(kwargs, row);
    var p := BuildEntities(MapAll(rows).value, uuids).value[i];
    assert p == BuildEntity(JobID(uuids[i]), kwargs);
    BuildEntityKeepsKwargs(JobID(uuids[i]), kwargs);
    assert p.typeOfCompensation == kwargs[TypeOfCompensation] == row[ColumnOf(TypeOfCompensation)];
    assert p.roleSeniority == kwargs[RoleSeniority] == row[ColumnOf(RoleSeniority)];
    assert p.officeLocation == kwargs[OfficeLocation] == row[ColumnOf(OfficeLocation)];
  }

  /** The serialized form of one posting: every model field but `id`, `created_at`
      and `modified_at`. */
  function SerializeJob(row: Row<JobPosting>): (v: Value)
    ensures v.VDict? && |v.entries| == 1 + |FieldOrder|
    ensures v.entries[0] == ("is_active", VBool(row.isActive))
    ensures forall i :: 0 <= i < |FieldOrder| ==>
      v.entries[i + 1] == (FieldOrder[i].Name(), VStr(AsKwargs(row.entity)[FieldOrder[i]]))
  {
    var p := row.entity;
    var entries := [("is_active", VBool(row.isActive))]
      + seq(|FieldOrder|, i requires 0 <= i < |FieldOrder| => (FieldOrder[i].Name(), VStr(AsKwargs(p)[FieldOrder[i]])));
    VDict(entries)
  }

  /** The query source: a truthy `job_title` goes to the search index; an absent or
      empty one lists the table. */
  function ListingSource(
    table: JobPostingTable, jobTitle: Option<string>,
    search: string -> Result<seq<Row<JobPosting>>, Exc>)
    : (r: Result<seq<Row<JobPosting>>, Exc>)
    reads table
    ensures jobTitle.Some? && jobTitle.value != [] ==> r == search(jobTitle.value)
    ensures jobTitle.None? || jobTitle.value == [] ==>
      r.Ok? && NewestFirst(r.value) && multiset(r.value) == multiset(table.rows)
  {
    if jobTitle.Some? && jobTitle.value != [] then search(jobTitle.value)
    else Ok(GetListOfJobPosting(table))
  }

  /** `many=True`: each posting serialized, in order. */
  function SerializeMany(postings: seq<Row<JobPosting>>): (vs: seq<Value>)
    ensures |vs| == |postings|
    ensures forall i :: 0 <= i < |postings| ==> vs[i] == SerializeJob(postings[i])
  {
    if postings == [] then [] else [SerializeJob(postings[0])] + SerializeMany(postings[1..])
  }

  /** `list_of_job_posting` once the query source has been chosen: a listing envelope whose
      `count` is the number of postings the source gave, or a 400 failure carrying the
      error's first argument. */
  function ListOfJobPosting(source: Result<seq<Row<JobPosting>>, Exc>): (r: Result<Response, Exc>)
    ensures source.Ok? ==>
      && r.Ok? && r.value.status == HTTP_200_OK && r.value.body.success
      && r.value.body.message == VStr(ListedMessage)
      && r.value.body.count == Some(|source.value|)
      && r.value.body.data == Some(VList(SerializeMany(source.value)))
    ensures source.Err? ==> r == FailFromException(source.error, ListFailedMessage)
  {
    match source
    case Err(e) => FailFromException(e, ListFailedMessage)
    case Ok(postings) =>
      var data := VList(SerializeMany(postings));
      match Listing(data, VStr(ListedMessage))
      case Ok(response) => Ok(response)
      case Err(e) => FailFromException(e, ListFailedMessage)
  }

  /** Without a title, the listing's `count` is the number of stored postings and its
      data serializes them newest first. */
  lemma UnfilteredListingCountsTable(
    table: JobPostingTable, search: string -> Result<seq<Row<JobPosting>>, Exc>)
    ensures var r := ListOfJobPosting(ListingSource(table, None, search));
      && r.Ok? && r.value.body.count == Some(|table.rows|)
      && r.value.body.data == Some(VList(SerializeMany(GetListOfJobPosting(table))))
  {
    var postings := ListingSource(table, None, search).value;
    assert |postings| == |multiset(postings)| == |multiset(table.rows)| == |table.rows|;
  }
}

=== FILE: middleware.dfy ===
/** The decision rule of `AuthMiddleWare.__call__` in `utils/django/middleware.py`:
    an anonymous caller is refused with 401, a staff member or superuser with 403,
    and any other authenticated caller is handed to the wrapped view. */
module Middleware {
  import opened Wrappers
  import opened PyValues
  import opened CustomResponse

  /** The flags of `request.user` that the rule reads. */
  datatype RequestUser = RequestUser(isAuthenticated: bool, isSuperuser: bool, isStaff: bool)

  /** The request as the view sees it; `payload` stands for everything the rule ignores. */
  datatype Request = Request(user: RequestUser, payload: Value)

  /** How the wrapped view is called: with the request alone, or also with `pk`. */
  datatype HandlerCall = WithRequest(request: Request) | WithRequestAndPk(request: Request, pk: Value)

  /** What the rule decides: answer on the view's behalf, or call the view. */
  datatype Decision = Refuse(response: Response) | Forward(call: HandlerCall)

  const AuthFailedErrors: Value := VDict([("error", VStr("Authentication Failed."))])
  const LoginMessage: string := "Authentication Failed. Please login"
  const AccessDeniedMessage: string := "Access denied."

  /** The three-way branch, before any view is run. */
  function Gate(request: Request, pk: Value): (d: Decision)
    ensures !request.user.isAuthenticated ==>
      && d.Refuse?
      && d.response.status == HTTP_401_UNAUTHORIZED
      && d.response.body.message == VStr(LoginMessage)
    ensures request.user.isAuthenticated && (request.user.isSuperuser || request.user.isStaff) ==>
      && d.Refuse?
      && d.response.status == HTTP_403_FORBIDDEN
      && d.response.body.message == VStr(AccessDeniedMessage)
    ensures d.Forward? <==>
      request.user.isAuthenticated && !request.user.isSuperuser && !request.user.isStaff
    ensures d.Forward? ==> d.call == if Truthy(pk) then WithRequestAndPk(request, pk) else WithRequest(request)
    ensures d.Refuse? ==>
      && !d.response.body.success
      && d.response.body.errors == Some(AuthFailedErrors)
      && d.response.body.data.None?
  {
    if !request.user.isAuthenticated then
      Refuse(Fail(HTTP_401_UNAUTHORIZED, AuthFailedErrors, VStr(LoginMessage)).value)
    else if !(request.user.isSuperuser || request.user.isStaff) then
      Forward(if Truthy(pk) then WithRequestAndPk(request, pk) else WithRequest(request))
    else
      Refuse(Fail(HTTP_403_FORBIDDEN, AuthFailedErrors, VStr(AccessDeniedMessage)).value)
  }

  /** `__call__`: the refusal, or exactly what the wrapped view returns. */
  function Call(getResponse: HandlerCall -> Result<Response, Exc>, request: Request, pk: Value): (r: Result<Response, Exc>)
    ensures Gate(request, pk).Refuse? ==> r == Ok(Gate(request, pk).response)
    ensures Gate(request, pk).Forward? ==> r == getResponse(Gate(request, pk).call)
  {
    match Gate(request, pk)
    case Refuse(response) => Ok(response)
    case Forward(call) => getResponse(call)
  }

  /** A refused request never reaches the view: any two views give the same answer. */
  lemma RefusalIgnoresView(
    view1: HandlerCall -> Result<Response, Exc>, view2: HandlerCall -> Result<Response, Exc>,
    request: Request, pk: Value)
    requires !request.user.isAuthenticated || request.user.isSuperuser || request.user.isStaff
    ensures Call(view1, request, pk) == Call(view2, request, pk)
    ensures Call(view1, request, pk).Ok? && Call(view1, request, pk).value.status in {HTTP_401_UNAUTHORIZED, HTTP_403_FORBIDDEN}
  {
  }

  /** An ordinary authenticated caller gets exactly the view's own response. */
  lemma OrdinaryUserPassesThrough(view: HandlerCall -> Result<Response, Exc>, request: Request, pk: Value)
    requires request.user.isAuthenticated && !request.user.isSuperuser && !request.user.isStaff
    ensures !Truthy(pk) ==> Call(view, request, pk) == view(WithRequest(request))
    ensures Truthy(pk) ==> Call(view, request, pk) == view(WithRequestAndPk(request, pk))
  {
  }
}

=== FILE: orm.dfy ===
/** The parts of Django's ORM that the services rely on: a saved row carries the
    `ActivityTracking` fields of `utils/django/custom_models.py` (created_at,
    modified_at, is_active), and a table answers `filter`, `get` and
    `order_by("-created_at")`. Timestamps are ticks of a store clock. */
module Orm {
  import opened Wrappers
  import opened PyValues

  /** A UUID primary key's text; `uuid4()` itself is an input to the model. */
  type Uuid = string

  /** A saved model instance: the entity plus the fields the ORM sets on save. */
  datatype Row<T> = Row(entity: T, createdAt: nat, modifiedAt: nat, isActive: bool)

  /** Creation times never go down along the table. */
  predicate CreatedInOrder<T>(rows: seq<Row<T>>) {
    forall i, j :: 0 <= i < j < |rows| ==> rows[i].createdAt < rows[j].createdAt
  }

  /** `auto_now_add`, `auto_now` and `is_active=True` applied to entities saved from clock `t`. */
  function Stamp<T>(entities: seq<T>, t: nat): (rows: seq<Row<T>>)
    ensures |rows| == |entities|
    ensures forall i :: 0 <= i < |rows| ==>
      rows[i] == Row(entities[i], t + i, t + i, true)
  {
    seq(|entities|, i requires 0 <= i < |entities| => Row(entities[i], t + i, t + i, true))
  }

  /** `filter(...)`: the matching rows, in table order. */
  function Filter<T(==,!new)>(s: seq<T>, p: T -> bool): (r: seq<T>)
    ensures |r| <= |s|
    ensures forall x :: x in r <==> x in s && p(x)
    ensures |r| >= 2 <==> exists i, j :: 0 <= i < j < |s| && p(s[i]) && p(s[j])
  {
    if s == [] then []
    else if p(s[0]) then
      var rest := Filter(s[1..], p);
      if rest != [] then
        assert rest[0] in s[1..];
        var j :| 0 <= j < |s[1..]| && s[1..][j] == rest[0];
        assert p(s[0]) && p(s[1 + j]);
        [s[0]] + rest
      else
        assert forall k :: 0 < k < |s| ==> !p(s[k]) by {
          forall k | 0 < k < |s| ensures !p(s[k]) {
            assert s[k] == s[1..][k - 1];
          }
        }
        [s[0]] + rest
    else
      var rest := Filter(s[1..], p);
      if |rest| >= 2 then
        var i, j :| 0 <= i < j < |s[1..]| && p(s[1..][i]) && p(s[1..][j]);
        assert p(s[i + 1]) && p(s[j + 1]);
        rest
      else
        assert forall i, j :: 0 <= i < j < |s| && p(s[i]) ==> !p(s[j]) by {
          forall i, j | 0 <= i < j < |s| && p(s[i]) ensures !p(s[j]) {
            assert s[i] == s[1..][i - 1] && s[j] == s[1..][j - 1];
          }
        }
        rest
  }

  /** At most one element satisfies `p`: what a unique column guarantees. */
  predicate AtMostOne<T>(s: seq<T>, p: T -> bool) {
    forall i, j :: 0 <= i < |s| && 0 <= j < |s| && p(s[i]) && p(s[j]) ==> i == j
  }

  /** `get(...)`: the one match; DoesNotExist for none, MultipleObjectsReturned for more. */
  function Get<T(==,!new)>(s: seq<T>, p: T -> bool): (r: Result<T, Exc>)
    ensures r.Ok? ==> r.value in s && p(r.value)
    ensures r.Err? && r.error.kind == DoesNotExist <==> forall x :: x in s ==> !p(x)
    ensures r.Err? ==> r.error.kind in {DoesNotExist, MultipleObjectsReturned}
    ensures AtMostOne(s, p) ==> r.Ok? || r.error.kind == DoesNotExist
    ensures !AtMostOne(s, p) ==> r.Err? && r.error.kind == MultipleObjectsReturned
  {
    var matches := Filter(s, p);
    if matches == [] then Err(Raise(DoesNotExist, "matching query does not exist."))
    else if |matches| == 1 then Ok(matches[0])
    else Err(Raise(MultipleObjectsReturned, "get() returned more than one object"))
  }

  /** `.get()` with DoesNotExist turned into None; MultipleObjectsReturned is not caught. */
  function GetOrNone<T(==,!new)>(rows: seq<T>, p: T -> bool): (r: Result<Option<T>, Exc>)
    ensures r == Ok(None) <==> forall x :: x in rows ==> !p(x)
    ensures r.Ok? && r.value.Some? ==> r.value.value in rows && p(r.value.value)
    ensures r.Err? ==> r.error.kind == MultipleObjectsReturned
    ensures AtMostOne(rows, p) ==> r.Ok?
    ensures !AtMostOne(rows, p) ==> r.Err? && r.error.kind == MultipleObjectsReturned
  {
    match Get(rows, p)
    case Ok(row) => Ok(Some(row))
    case Err(e) => if e.kind == DoesNotExist then Ok(None) else Err(e)
  }

  /** Sorted by creation time, newest first. */
  predicate NewestFirst<T>(rows: seq<Row<T>>) {
    forall i, j :: 0 <= i < j < |rows| ==> rows[i].createdAt >= rows[j].createdAt
  }

  /** Putting a row no older than the head in front keeps the order. */
  lemma NewestFirstCons<T>(y: Row<T>, rest: seq<Row<T>>)
    requires NewestFirst(rest)
    requires rest != [] ==> y.createdAt >= rest[0].createdAt
    ensures NewestFirst([y] + rest)
  {
    var r := [y] + rest;
    forall i, j | 0 <= i < j < |r| ensures r[i].createdAt >= r[j].createdAt {
      if i == 0 {
        assert r[j] == rest[j - 1];
      }
    }
  }

  function InsertByCreatedDesc<T>(x: Row<T>, s: seq<Row<T>>): (r: seq<Row<T>>)
    requires NewestFirst(s)
    ensures NewestFirst(r)
    ensures multiset(r) == multiset(s) + multiset{x}
    ensures r[0] == x || (s != [] && r[0] == s[0])
  {
    if s == [] || x.createdAt >= s[0].createdAt then
      NewestFirstCons(x, s);
      [x] + s
    else
      var rest := InsertByCreatedDesc(x, s[1..]);
      assert s == [s[0]] + s[1..];
      NewestFirstCons(s[0], rest);
      [s[0]] + rest
  }

  /** `order_by("-created_at")` over a whole table. */
  function OrderByCreatedDesc<T>(s: seq<Row<T>>): (r: seq<Row<T>>)
    ensures NewestFirst(r)
    ensures multiset(r) == multiset(s)
    ensures |r| == |s|
  {
    if s == [] then []
    else
      assert s == [s[0]] + s[1..];
      InsertByCreatedDesc(s[0], OrderByCreatedDesc(s[1..]))
  }
}

=== FILE: py_values.dfy ===
/** The slice of Python's data model that the backend's decision logic touches:
    the values that flow through dicts, their truthiness, the few built-in
    operations that can raise (`v[0]`, `next(iter(d))`, `len(v)`, `str + v`), and
    exceptions as values carrying their `args` and their `str()`. */
module PyValues {
  import opened Wrappers

  /** A Python value. A dict is an insertion-ordered sequence of key/value pairs
      with distinct keys; every dict the backend builds has string keys. */
  datatype Value =
    | VNone
    | VBool(b: bool)
    | VInt(i: int)
    | VStr(s: string)
    | VList(items: seq<Value>)
    | VDict(entries: seq<(string, Value)>)

  /** Python truthiness: `if v:`. */
  predicate Truthy(v: Value) {
    match v
    case VNone => false
    case VBool(b) => b
    case VInt(i) => i != 0
    case VStr(s) => s != []
    case VList(items) => items != []
    case VDict(entries) => entries != []
  }

  function TypeName(v: Value): string {
    match v
    case VNone => "NoneType"
    case VBool(_) => "bool"
    case VInt(_) => "int"
    case VStr(_) => "str"
    case VList(_) => "list"
    case VDict(_) => "dict"
  }

  /** The keys of a dict, in insertion order. */
  function Keys(entries: seq<(string, Value)>): (ks: seq<string>)
    ensures |ks| == |entries|
    ensures forall i :: 0 <= i < |entries| ==> ks[i] == entries[i].0
  {
    if entries == [] then [] else [entries[0].0] + Keys(entries[1..])
  }

  /** `d.get(key)`: the value stored under the first occurrence of `key`. */
  function Lookup(entries: seq<(string, Value)>, key: string): (r: Option<Value>)
    ensures r.None? <==> key !in Keys(entries)
    ensures r.Some? ==> exists i :: 0 <= i < |entries| && entries[i] == (key, r.value)
  {
    if entries == [] then None
    else if entries[0].0 == key then Some(entries[0].1)
    else Lookup(entries[1..], key)
  }

  /** The built-in exception classes and the backend's own two that the model raises. */
  datatype ExcKind =
    | KeyError
    | IndexError
    | StopIteration
    | TypeError
    | AttributeError
    | ValueError
    | DoesNotExist
    | MultipleObjectsReturned
    | IntegrityError  // a unique or primary-key column rejected a saved row
    | UserException
    | InvalidUserException
    | External  // raised by a collaborator outside the model (file reader, search index, token issuer)

  /** A raised exception: its class, its `args` tuple and `str(e)`. */
  datatype Exc = Exc(kind: ExcKind, args: seq<Value>, text: string)

  /** An exception built with one message argument, as in `ValueError("...")`. */
  function Raise(kind: ExcKind, message: string): (e: Exc)
    ensures e.kind == kind && e.args == [VStr(message)] && e.text == message
  {
    Exc(kind, [VStr(message)], message)
  }

  /** `KeyError(key)`: its `str()` is the key's repr. */
  function MissingKey(key: string): (e: Exc)
    ensures e.kind == KeyError && e.args == [VStr(key)]
  {
    Exc(KeyError, [VStr(key)], "'" + key + "'")
  }

  /** `v[0]`. */
  function Subscript0(v: Value): (r: Result<Value, Exc>)
    ensures v.VList? && v.items != [] ==> r == Ok(v.items[0])
    ensures v.VStr? && v.s != [] ==> r == Ok(VStr([v.s[0]]))
    ensures r.Ok? <==> (v.VList? && v.items != []) || (v.VStr? && v.s != [])
  {
    match v
    case VList(items) =>
      if items == [] then Err(Raise(IndexError, "list index out of range")) else Ok(items[0])
    case VStr(s) =>
      if s == [] then Err(Raise(IndexError, "string index out of range")) else Ok(VStr([s[0]]))
    case VDict(_) =>
      // every key is a string, so the integer key 0 is never present
      Err(Exc(KeyError, [VInt(0)], "0"))
    case _ =>
      Err(Raise(TypeError, "'" + TypeName(v) + "' object is not subscriptable"))
  }

  /** `d[next(iter(d))][0]`: the first element of the value under the first key.
      An empty dict raises StopIteration, whose `args` is empty. */
  function FirstOfFirstKey(entries: seq<(string, Value)>): (r: Result<Value, Exc>)
    ensures entries == [] ==> r.Err? && r.error.kind == StopIteration && r.error.args == []
    ensures entries != [] ==> r == Subscript0(entries[0].1)
  {
    if entries == [] then Err(Exc(StopIteration, [], ""))
    else Subscript0(entries[0].1)
  }

  /** `len(v)`. */
  function Len(v: Value): (r: Result<nat, Exc>)
    ensures v.VList? ==> r == Ok(|v.items|)
    ensures v.VDict? ==> r == Ok(|v.entries|)
    ensures v.VStr? ==> r == Ok(|v.s|)
    ensures r.Err? <==> !(v.VList? || v.VDict? || v.VStr?)
  {
    match v
    case VList(items) => Ok(|items|)
    case VDict(entries) => Ok(|entries|)
    case VStr(s) => Ok(|s|)
    case _ => Err(Raise(TypeError, "object of type '" + TypeName(v) + "' has no len()"))
  }

  /** `prefix + v` with a str on the left. */
  function ConcatStr(prefix: string, v: Value): (r: Result<string, Exc>)
    ensures r.Ok? <==> v.VStr?
    ensures v.VStr? ==> r == Ok(prefix + v.s)
  {
    if v.VStr? then Ok(prefix + v.s)
    else Err(Raise(TypeError, "can only concatenate str (not \"" + TypeName(v) + "\") to str"))
  }

  /** `e.args[0]`, which itself raises when the exception was built without arguments. */
  function FirstArg(e: Exc): (r: Result<Value, Exc>)
    ensures r.Ok? <==> e.args != []
    ensures r.Ok? ==> r.value == e.args[0]
    ensures r.Err? ==> r.error.kind == IndexError
  {
    if e.args == [] then Err(Raise(IndexError, "tuple index out of range")) else Ok(e.args[0])
  }
}

=== FILE: user_access.dfy ===
/** How the users that `backend/domain/user/models.py` creates fare at the gate of
    `utils/django/middleware.py`: the gate reads `is_superuser` and `is_staff` by
    truthiness, so every account `create_superuser` makes is refused by the
    guarded views, and every account the factory builds is let through. */
module UserAccess {
  import opened PyValues
  import opened Orm
  import opened CustomResponse
  import opened Middleware
  import opened UserModels

  /** `request.user` once `user` has logged in. */
  function SignedIn(u: User): (ru: RequestUser)
    ensures ru.isAuthenticated
    ensures ru.isSuperuser == Truthy(u.isSuperuser) && ru.isStaff == Truthy(u.isStaff)
  {
    RequestUser(true, Truthy(u.isSuperuser), Truthy(u.isStaff))
  }

  /** A signed-in superuser, as `create_superuser` returns one, gets 403. */
  lemma SuperusersAreRefused(u: User, payload: Value, pk: Value)
    requires u.isStaff == VBool(true) && u.isSuperuser == VBool(true)
    ensures Gate(Request(SignedIn(u), payload), pk).Refuse?
    ensures Gate(Request(SignedIn(u), payload), pk).response.status == HTTP_403_FORBIDDEN
  {
  }

  /** A signed-in user built by `UserFactory` reaches the view. */
  lemma FactoryUsersPassThrough(uuid: Uuid, email: string, firstName: string, lastName: string,
                                password: string, payload: Value, pk: Value)
    ensures Gate(Request(SignedIn(BuildEntityWithId(uuid, email, firstName, lastName, password)), payload), pk).Forward?
  {
  }
}

=== FILE: user_models.dfy ===
/** The user schema of `backend/domain/user/models.py`: the `User` record and its
    column constraints, `__str__`, `UserFactory`, and the two creation rules of
    `UserManagerAutoID`, run against `User.objects`, which is modelled as a table
    object holding the saved rows. */
module UserModels {
  import opened Wrappers
  import opened PyValues
  import opened Orm

  /** `UserID`: a frozen wrapper around the id. */
  datatype UserID = UserID(value: Uuid)

  const EmptyEmailMessage: string := "Enter an email address"
  const StaffFlagMessage: string := "Superuser must have is_staff=True."
  const SuperuserFlagMessage: string := "Superuser must have is_superuser=True."

  /** A `User` instance. `password` is what `set_password` stored (the hash), and
      the two flags hold whatever value the constructor was given; both default
      to False. */
  datatype User = User(
    id: Uuid,
    email: string,
    firstName: string,
    lastName: string,
    password: string,
    isStaff: Value,
    isSuperuser: Value)

  /** `__str__`: the first name followed directly by the last name. */
  function DisplayName(u: User): (s: string)
    ensures |s| == |u.firstName| + |u.lastName|
    ensures s[..|u.firstName|] == u.firstName && s[|u.firstName|..] == u.lastName
  {
    u.firstName + u.lastName
  }

  /** With no separator, two different users can print the same. */
  lemma DisplayNameIsAmbiguous()
    ensures
      var a := User("1", "a@x.io", "Ann", "aLee", "h", VBool(false), VBool(false));
      var b := User("2", "b@x.io", "Anna", "Lee", "h", VBool(false), VBool(false));
      a.firstName != b.firstName && DisplayName(a) == DisplayName(b)
  {
    var a := User("1", "a@x.io", "Ann", "aLee", "h", VBool(false), VBool(false));
    var b := User("2", "b@x.io", "Anna", "Lee", "h", VBool(false), VBool(false));
    assert DisplayName(a) == "AnnaLee";
    assert DisplayName(b) == "AnnaLee";
  }

  // ---------------------------------------------------------------------------
  // UserFactory
  // ---------------------------------------------------------------------------

  /** `UserFactory.build_entity`: an unsaved user carrying the given id and fields;
      the flags keep their defaults, so the user is neither staff nor superuser. */
  function BuildEntity(id: UserID, email: string, firstName: string, lastName: string, password: string): (u: User)
    ensures u.id == id.value
    ensures u.email == email && u.firstName == firstName && u.lastName == lastName
    ensures u.password == password
    ensures !Truthy(u.isStaff) && !Truthy(u.isSuperuser)
  {
    User(id.value, email, firstName, lastName, password, VBool(false), VBool(false))
  }

  /** `UserFactory.build_entity_with_id`: the same under a fresh id `uuid`. */
  function BuildEntityWithId(uuid: Uuid, email: string, firstName: string, lastName: string, password: string): (u: User)
    ensures u.id == uuid
    ensures u.email == email && u.firstName == firstName && u.lastName == lastName
    ensures u.password == password
    ensures !Truthy(u.isStaff) && !Truthy(u.isSuperuser)
  {
    BuildEntity(UserID(uuid), email, firstName, lastName, password)
  }

  // ---------------------------------------------------------------------------
  // The saved users
  // ---------------------------------------------------------------------------

  /** No two saved users share an email (`unique=True`). */
  predicate EmailsUnique(rows: seq<Row<User>>) {
    forall i, j :: 0 <= i < |rows| && 0 <= j < |rows| && rows[i].entity.email == rows[j].entity.email ==> i == j
  }

  /** No two saved users share an id (the primary key). */
  predicate IdsUnique(rows: seq<Row<User>>) {
    forall i, j :: 0 <= i < |rows| && 0 <= j < |rows| && rows[i].entity.id == rows[j].entity.id ==> i == j
  }

  /** Some saved user already holds this id or this email. */
  predicate Clashes(rows: seq<Row<User>>, id: Uuid, email: string) {
    exists i :: 0 <= i < |rows| && (rows[i].entity.id == id || rows[i].entity.email == email)
  }

  /** The keyword arguments `create_user` forwards to the model besides the
      three named fields. */
  predicate ExtrasAccepted(extra: map<string, Value>) {
    extra.Keys <= {"is_staff", "is_superuser"}
  }

  /** A flag as the model constructor sets it: the keyword's value, or False. */
  function FlagOf(extra: map<string, Value>, key: string): Value {
    if key in extra then extra[key] else VBool(false)
  }

  /** `extra_fields.setdefault(key, value)`. */
  function SetDefault(extra: map<string, Value>, key: string, value: Value): (r: map<string, Value>)
    ensures r.Keys == extra.Keys + {key}
    ensures key in extra ==> r[key] == extra[key]
    ensures key !in extra ==> r[key] == value
    ensures forall k :: k in extra ==> r[k] == extra[k]
  {
    if key in extra then extra else extra[key := value]
  }

  /** A flag passes `is not True` only when it is the bool True itself. */
  predicate FlagIsTrue(extra: map<string, Value>, key: string) {
    key !in extra || extra[key] == VBool(true)
  }

  /** The first half of `create_superuser`: both flags default to True, and a flag
      given as anything but True (1 and "True" included) is refused, the staff flag
      being checked first. */
  function SuperuserFields(extra: map<string, Value>): (r: Result<map<string, Value>, Exc>)
    ensures r.Ok? <==> FlagIsTrue(extra, "is_staff") && FlagIsTrue(extra, "is_superuser")
    ensures !FlagIsTrue(extra, "is_staff") ==> r == Err(Raise(ValueError, StaffFlagMessage))
    ensures FlagIsTrue(extra, "is_staff") && !FlagIsTrue(extra, "is_superuser") ==>
      r == Err(Raise(ValueError, SuperuserFlagMessage))
    ensures r.Ok? ==>
      && r.value.Keys == extra.Keys + {"is_staff", "is_superuser"}
      && r.value["is_staff"] == VBool(true)
      && r.value["is_superuser"] == VBool(true)
      && (forall k :: k in extra ==> r.value[k] == extra[k])
  {
    var fields := SetDefault(SetDefault(extra, "is_staff", VBool(true)), "is_superuser", VBool(true));
    if fields["is_staff"] != VBool(true) then Err(Raise(ValueError, StaffFlagMessage))
    else if fields["is_superuser"] != VBool(true) then Err(Raise(ValueError, SuperuserFlagMessage))
    else Ok(fields)
  }

  /** `User.objects`: the saved users, oldest first, and the clock that stamps them. */
  class UserTable {
    var rows: seq<Row<User>>
    var clock: nat

    /** Rows are stamped from a clock that only moves forward, and the unique
        columns hold. */
    ghost predicate Valid()
      reads this
    {
      && CreatedInOrder(rows)
      && (forall i :: 0 <= i < |rows| ==> rows[i].createdAt < clock)
      && IdsUnique(rows)
      && EmailsUnique(rows)
    }

    constructor ()
      ensures Valid() && rows == []
    {
      rows := [];
      clock := 0;
    }

    /** `user.save()` of a new user: the database refuses a duplicate id or email
        with an IntegrityError and writes nothing; otherwise the user is appended,
        stamped with the clock and active. */
    method Insert(u: User) returns (r: Result<Row<User>, Exc>)
      requires Valid()
      modifies this
      ensures Valid()
      ensures r.Err? <==> Clashes(old(rows), u.id, u.email)
      ensures r.Err? ==> r.error.kind == IntegrityError && rows == old(rows) && clock == old(clock)
      ensures r.Ok? ==>
        && r.value == Row(u, old(clock), old(clock), true)
        && rows == old(rows) + [r.value]
        && clock == old(clock) + 1
    {
      if Clashes(rows, u.id, u.email) {
        return Err(Raise(IntegrityError, "duplicate key value violates unique constraint"));
      }
      r := Ok(Row(u, clock, clock, true));
      rows := rows + [r.value];
      clock := clock + 1;
    }

    /** `create_user`: a missing or empty email is refused before anything else;
        otherwise the email is normalised, the model is built with the extra
        keywords, the password is hashed and the user is saved once. `uuid`,
        `normalize` and `hash` stand for `uuid4()`, `normalize_email` and the
        password hasher. Every failure leaves the table as it was. */
    method CreateUser(
      firstName: string, lastName: string, email: Option<string>, password: Option<string>,
      extra: map<string, Value>, uuid: Uuid, normalize: string -> string, hash: Option<string> -> string)
      returns (r: Result<User, Exc>)
      requires Valid()
      modifies this
      ensures Valid()
      ensures r.Err? ==> rows == old(rows) && clock == old(clock)
      ensures email.None? || email == Some("") ==> r == Err(Raise(ValueError, EmptyEmailMessage))
      ensures email.Some? && email.value != "" && !ExtrasAccepted(extra) ==> r.Err? && r.error.kind == TypeError
      ensures r.Ok? <==>
        email.Some? && email.value != "" && ExtrasAccepted(extra) && !Clashes(old(rows), uuid, normalize(email.value))
      ensures r.Ok? ==>
        && r.value.id == uuid
        && r.value.email == normalize(email.value)
        && r.value.firstName == firstName && r.value.lastName == lastName
        && r.value.password == hash(password)
        && r.value.isStaff == FlagOf(extra, "is_staff")
        && r.value.isSuperuser == FlagOf(extra, "is_superuser")
        && rows == old(rows) + [Row(r.value, old(clock), old(clock), true)]
        && clock == old(clock) + 1
    {
      if email.None? || email.value == "" {
        return Err(Raise(ValueError, EmptyEmailMessage));
      }
      var normalized := normalize(email.value);
      if !ExtrasAccepted(extra) {
        return Err(Raise(TypeError, "User() got unexpected keyword arguments"));
      }
      var user := User(uuid, normalized, firstName, lastName, "", FlagOf(extra, "is_staff"), FlagOf(extra, "is_superuser"));
      user := user.(password := hash(password));
      var saved := Insert(user);
      if saved.Err? {
        return Err(saved.error);
      }
      r := Ok(user);
    }

    /** `create_superuser`: the flag rules of `SuperuserFields`, then `create_user`
        with the completed keywords; a user it returns is both staff and superuser. */
    method CreateSuperuser(
      firstName: string, lastName: string, email: Option<string>, password: Option<string>,
      extra: map<string, Value>, uuid: Uuid, normalize: string -> string, hash: Option<string> -> string)
      returns (r: Result<User, Exc>)
      requires Valid()
      modifies this
      ensures Valid()
      ensures r.Err? ==> rows == old(rows) && clock == old(clock)
      ensures SuperuserFields(extra).Err? ==> r == Err(SuperuserFields(extra).error)
      ensures SuperuserFields(extra).Ok? && (email.None? || email == Some("")) ==>
        r == Err(Raise(ValueError, EmptyEmailMessage))
      ensures r.Ok? <==>
        && SuperuserFields(extra).Ok?
        && email.Some? && email.value != ""
        && ExtrasAccepted(extra)
        && !Clashes(old(rows), uuid, normalize(email.value))
      ensures r.Ok? ==>
        && email.Some?
        && r.value.id == uuid
        && r.value.email == normalize(email.value)
        && r.value.firstName == firstName && r.value.lastName == lastName
        && r.value.password == hash(password)
        && r.value.isStaff == VBool(true) && r.value.isSuperuser == VBool(true)
        && rows == old(rows) + [Row(r.value, old(clock), old(clock), true)]
        && clock == old(clock) + 1
    {
      var fields := SuperuserFields(extra);
      if fields.Err? {
        return Err(fields.error);
      }
      assert ExtrasAccepted(fields.value) <==> ExtrasAccepted(extra);
      r := CreateUser(firstName, lastName, email, password, fields.value, uuid, normalize, hash);
    }
  }
}

=== FILE: user_services.dfy ===
/** The user application services of `backend/application/user/services.py`:
    lookups that turn DoesNotExist into None, the list of all users, the login
    token payload, and signup from a validated dict. */
module UserServices {
  import opened Wrappers
  import opened PyValues
  import opened Orm
  import opened Exceptions
  import opened UserModels

  function IdIs(id: Uuid): Row<User> -> bool {
    (row: Row<User>) => row.entity.id == id
  }

  function EmailIs(email: string): Row<User> -> bool {
    (row: Row<User>) => row.entity.email == email
  }

  /** `get_user_by_id`: the user with that id, or None when there is none. */
  function GetUserById(table: UserTable, id: Uuid): (r: Result<Option<Row<User>>, Exc>)
    reads table
    ensures r == Ok(None) <==> forall x :: x in table.rows ==> x.entity.id != id
    ensures r.Ok? && r.value.Some? ==> r.value.value in table.rows && r.value.value.entity.id == id
    ensures IdsUnique(table.rows) ==> r.Ok?
    ensures r.Err? ==> r.error.kind == MultipleObjectsReturned
    ensures r.Err? <==> (exists i, j :: 0 <= i < j < |table.rows| &&
                           table.rows[i].entity.id == id && table.rows[j].entity.id == id)
  {
    GetOrNone(table.rows, IdIs(id))
  }

  /** `get_user_by_email`: the user with that email, or None when there is none. */
  function GetUserByEmail(table: UserTable, email: string): (r: Result<Option<Row<User>>, Exc>)
    reads table
    ensures r == Ok(None) <==> forall x :: x in table.rows ==> x.entity.email != email
    ensures r.Ok? && r.value.Some? ==> r.value.value in table.rows && r.value.value.entity.email == email
    ensures EmailsUnique(table.rows) ==> r.Ok?
    ensures r.Err? ==> r.error.kind == MultipleObjectsReturned
    ensures r.Err? <==> (exists i, j :: 0 <= i < j < |table.rows| &&
                           table.rows[i].entity.email == email && table.rows[j].entity.email == email)
  {
    GetOrNone(table.rows, EmailIs(email))
  }

  /** `get_list_of_users`: `all()`, every saved user, active or not. */
  function GetListOfUsers(table: UserTable): (r: seq<Row<User>>)
    reads table
    ensures multiset(r) == multiset(table.rows)
  {
    table.rows
  }

  /** With the unique columns holding, the lookup by a saved user's id or email
      finds exactly that user. */
  lemma SavedUserIsFound(rows: seq<Row<User>>, i: nat)
    requires IdsUnique(rows) && EmailsUnique(rows) && i < |rows|
    ensures GetOrNone(rows, IdIs(rows[i].entity.id)) == Ok(Some(rows[i]))
    ensures GetOrNone(rows, EmailIs(rows[i].entity.email)) == Ok(Some(rows[i]))
  {
    var byId := GetOrNone(rows, IdIs(rows[i].entity.id));
    assert IdIs(rows[i].entity.id)(rows[i]);
    assert byId.Ok? && byId.value.Some?;
    var j :| 0 <= j < |rows| && rows[j] == byId.value.value;
    assert rows[j].entity.id == rows[i].entity.id;
    var byEmail := GetOrNone(rows, EmailIs(rows[i].entity.email));
    assert EmailIs(rows[i].entity.email)(rows[i]);
    assert byEmail.Ok? && byEmail.value.Some?;
    var k :| 0 <= k < |rows| && rows[k] == byEmail.value.value;
    assert rows[k].entity.email == rows[i].entity.email;
  }

  /** Every user in the list is what the two lookups return for its id and email. */
  lemma ListedUsersAreFound(table: UserTable, i: nat)
    requires table.Valid() && i < |GetListOfUsers(table)|
    ensures GetUserById(table, GetListOfUsers(table)[i].entity.id) == Ok(Some(GetListOfUsers(table)[i]))
    ensures GetUserByEmail(table, GetListOfUsers(table)[i].entity.email) == Ok(Some(GetListOfUsers(table)[i]))
  {
    SavedUserIsFound(table.rows, i);
  }

  /** `first_name + " " + last_name`. When the first name has no space, the two
      names can be read back by splitting at the first space. */
  function FullName(firstName: string, lastName: string): (s: string)
    ensures |s| == |firstName| + 1 + |lastName| && s[|firstName|] == ' '
    ensures s[..|firstName|] == firstName && s[|firstName| + 1..] == lastName
    ensures ' ' !in firstName ==> SplitAtFirst(s, ' ') == (firstName, lastName)
  {
    if ' ' !in firstName then
      SplitAtFirstJoin(firstName, ' ', lastName);
      firstName + " " + lastName
    else firstName + " " + lastName
  }

  const InvalidCredentials: string := "Invalid Credentials"

  /** The payload of a successful login: each key holds the value at its position. */
  function TokenData(row: Row<User>, access: string, refresh: string): (v: Value)
    ensures v.VDict?
    ensures Keys(v.entries) == ["id", "email", "full_name", "created_at", "modified_at", "access", "refresh"]
    ensures v.entries[0].1 == VStr(row.entity.id) && v.entries[1].1 == VStr(row.entity.email)
    ensures v.entries[2].1 == VStr(FullName(row.entity.firstName, row.entity.lastName))
    ensures v.entries[3].1 == VInt(row.createdAt) && v.entries[4].1 == VInt(row.modifiedAt)
    ensures v.entries[5].1 == VStr(access) && v.entries[6].1 == VStr(refresh)
  {
    var entries := [
      ("id", VStr(row.entity.id)),
      ("email", VStr(row.entity.email)),
      ("full_name", VStr(FullName(row.entity.firstName, row.entity.lastName))),
      ("created_at", VInt(row.createdAt)),
      ("modified_at", VInt(row.modifiedAt)),
      ("access", VStr(access)),
      ("refresh", VStr(refresh))];
    VDict(entries)
  }

  /** `get_user_token`. `issued` is what `RefreshToken.for_user(user)` gave: the
      access and refresh tokens as text, or the exception it raised. `user` is None
      when authentication found nobody; reading `user.id` then raises. Any failure
      is logged with its `args[0]`, which itself raises IndexError for an exception
      without arguments, and otherwise is re-raised as
      `InvalidUserException("Invalid Credentials", str(failure))`. */
  function GetUserToken(user: Option<Row<User>>, issued: Result<(string, string), Exc>): (r: Result<Value, Exc>)
    ensures r.Ok? <==> user.Some? && issued.Ok?
    ensures r.Ok? ==> r.value == TokenData(user.value, issued.value.0, issued.value.1)
    ensures issued.Err? ==>
      if issued.error.args == [] then r.Err? && r.error.kind == IndexError
      else r == Err(InvalidUserError(InvalidCredentials, issued.error.text).AsExc())
    ensures r.Err? ==> r.error.kind in {IndexError, InvalidUserException}
  {
    var attempt :=
      if issued.Err? then Err(issued.error)
      else if user.None? then Err(Raise(AttributeError, "'NoneType' object has no attribute 'id'"))
      else Ok(TokenData(user.value, issued.value.0, issued.value.1));
    if attempt.Ok? then attempt
    else
      match FirstArg(attempt.error)
      case Err(indexError) => Err(indexError)
      case Ok(_) => Err(InvalidUserError(InvalidCredentials, attempt.error.text).AsExc())
  }

  /** The exception a duplicate signup raises. */
  const DuplicateEmail: UserError := UserError("Email already exists", "")

  /** Some saved user already has this email. */
  predicate EmailTaken(rows: seq<Row<User>>, email: string) {
    exists i :: 0 <= i < |rows| && rows[i].entity.email == email
  }

  /** The signup answer: the names, the email and the full name, each under its key. */
  function SignupData(u: User): (v: Value)
    ensures v.VDict?
    ensures Keys(v.entries) == ["first_name", "last_name", "email", "full_name"]
    ensures v.entries[0].1 == VStr(u.firstName) && v.entries[1].1 == VStr(u.lastName)
    ensures v.entries[2].1 == VStr(u.email)
    ensures v.entries[3].1 == VStr(FullName(u.firstName, u.lastName))
  {
    var entries := [
      ("first_name", VStr(u.firstName)),
      ("last_name", VStr(u.lastName)),
      ("email", VStr(u.email)),
      ("full_name", VStr(FullName(u.firstName, u.lastName)))];
    VDict(entries)
  }

  /** `data.get(key, None)`. */
  function GetOrNoneKey(data: map<string, string>, key: string): (r: Option<string>)
    ensures r.Some? <==> key in data
    ensures r.Some? ==> r.value == data[key]
  {
    if key in data then Some(data[key]) else None
  }

  /** `create_user_from_dict` with `uuid` as the fresh `uuid4()` and `hash` as
      `make_password`. A taken email raises `UserException("Email already exists", "")`
      before anything is built or saved; otherwise one user is saved, holding the hash
      of the password and not the password, and the answer echoes the names and the
      email. */
  method CreateUserFromDict(table: UserTable, data: map<string, string>, uuid: Uuid, hash: Option<string> -> string)
    returns (r: Result<Value, Exc>)
    requires table.Valid()
    requires "email" in data && "first_name" in data && "last_name" in data
    modifies table
    ensures table.Valid()
    ensures r.Err? ==> table.rows == old(table.rows) && table.clock == old(table.clock)
    ensures EmailTaken(old(table.rows), data["email"]) ==> r == Err(DuplicateEmail.AsExc())
    ensures !EmailTaken(old(table.rows), data["email"]) && r.Err? ==> r.error.kind == IntegrityError
    ensures r.Ok? <==> !Clashes(old(table.rows), uuid, data["email"])
    ensures r.Ok? ==>
      var u := BuildEntityWithId(uuid, data["email"], data["first_name"], data["last_name"],
                                 hash(GetOrNoneKey(data, "password")));
      && table.rows == old(table.rows) + [Row(u, old(table.clock), old(table.clock), true)]
      && table.clock == old(table.clock) + 1
      && r.value == SignupData(u)
      && GetUserByEmail(table, data["email"]) == Ok(Some(table.rows[|table.rows| - 1]))
  {
    var email := data["email"];
    var firstName := data["first_name"];
    var lastName := data["last_name"];
    var password := GetOrNoneKey(data, "password");
    if |Filter(table.rows, EmailIs(email))| > 0 {
      var x := Filter(table.rows, EmailIs(email))[0];
      assert x in table.rows;
      return Err(DuplicateEmail.AsExc());
    }
    assert !EmailTaken(table.rows, email) by {
      forall i | 0 <= i < |table.rows| ensures table.rows[i].entity.email != email {
        assert table.rows[i] !in Filter(table.rows, EmailIs(email));
      }
    }
    var user := BuildEntityWithId(uuid, email, firstName, lastName, hash(password));
    var saved := table.Insert(user);
    if saved.Err? {
      return Err(saved.error);
    }
    SavedUserIsFound(table.rows, |table.rows| - 1);
    r := Ok(SignupData(user));
  }
}

=== FILE: wrappers.dfy ===
/** Option and Result, the two failure-compatible wrappers the model uses for
    Python's `None` and for calls that can raise. */
module Wrappers {

  datatype Option<+T> = None | Some(value: T)

  datatype Result<+T, +E> = Ok(value: T) | Err(error: E)
}
